=== FILE: README.md ===
# Tweeky Queeky shop backend — a Dafny model of its core

Tweeky Queeky is an online shop whose FastAPI backend keeps orders, products
and users in MongoDB. This project models the rules at the heart of that
backend:

- the checkout, which prices the cart from the catalog and not from the client;
- the order lifecycle: create, pay, deliver, list the caller's own orders,
  fetch one order, list all orders;
- the PayPal decision logic (the credential guard, the completed-status check,
  the amount text) and the used-transaction ledger guard;
- the order document, its defaults and the JSON shape it is returned in;
- the catalog: paging and keyword search, the top-rated list, create, patch,
  delete, and reviews with their mean rating;
- the user rules: login, registration, profile update, and the administrator
  endpoints (read, patch, delete);
- the upload endpoint's file-type check and the path it returns.

Each endpoint is a pure function. It takes the store (three sequences of
documents, in the database's natural order) and the request, and returns
either an `HttpError(status, detail)` or the new store plus the response body.
Money is kept in integer cents. The float rounding of `calc_prices` is
written out as round-half-even on the exact value. Python's `str()` of a
two-decimal float is written out as `Money.FloatStr` ("138.0", "67.5"), and
the payment amount check compares exactly that text.

Behaviour of the code that the model keeps as written:

- **Any caller may pay any order.** Paying checks, in this order:
  1. processor verification;
  2. the completed status;
  3. the used-transaction guard;
  4. the order lookup;
  5. the amount text.

  An order already paid is paid again. The new payment result overwrites the
  old one, so the earlier transaction id stops being "used"
  (`OrderProperties.RepayReleasesTransaction`).
- **A whole total prints with one zero.** A total of 138.00 prints as
  "138.0", so a processor amount of "138.00" is refused
  (`Money.FloatStrWholeAmount`).
- **Checkout looks products up by the client's raw text.** The product text
  is parsed as an ObjectId, but the lookup uses the text as the client sent
  it. An upper-case id therefore parses and is then "not found"
  (`OrderProperties.NonCanonicalProductTextNotFound`). Text that is not an
  ObjectId at all makes the conversion raise, which the global handler turns
  into a 500.
- **Pydantic bounds are checked at construction, not on a patch.** They are
  checked when a product or review is created. A patch is a plain
  assignment, so it stores a negative price
  (`Products.UpdateMayBreakPriceBound`). The document is validated again
  whenever it is loaded, so reads of such a product then fail; the model
  does not follow that (see "Left out").
- **The used-transaction guard queries a field name that is never stored.**
  The order stores its payment result under the alias `paymentResult`
  (models/order.py:40), but the guard asks for `payment_result.id`
  (utils/paypal.py:41). As written, every transaction is therefore new
  (`PayPal.CheckIfNewTransactionAsWritten`). The model uses the guard with
  the stored field name (`PayPal.CheckIfNewTransaction`); see "Findings".
- **Login checks only the first account with the email.** A later account
  with the same email is never tried, and a profile update may duplicate
  another user's email.

## Model

| member | source | states |
|---|---|---|
| CalcPrices.CalcPrices | utils/calc_prices.py:4-31 | items price is the sum of price × qty; shipping is free exactly when that sum exceeds 100.00, otherwise 10.00; tax is 15% of the items price rounded to the cent; total is items + shipping + tax |
| CalcPrices.TaxIsRoundedFifteenPercent | utils/calc_prices.py:21 | the tax is the unique cent amount nearest to 15% of the items price, a tie going to the even cent |
| CalcPrices.EmptyCart | utils/calc_prices.py:15-24 | an empty list of lines costs nothing but the 10.00 flat shipping |
| CalcPrices.ThresholdIsStrict | utils/calc_prices.py:18 | exactly 100.00 of items still pays shipping; 100.01 ships free |
| CalcPrices.TotalCoversItems | utils/calc_prices.py:21-24 | with non-negative prices and quantities the tax is non-negative and the total is at least the items price |
| CalcPrices.WorkedExamples | utils/calc_prices.py:4-31 | 2 × 60.00 gives 120.00 + 0 + 18.00 = 138.00; 1 × 50.00 gives 50.00 + 10.00 + 7.50 = 67.50 |
| CalcPrices.SubtotalAppend | utils/calc_prices.py:15 | the items sum of two concatenated carts is the sum of their sums |
| CalcPrices.SumLines | utils/calc_prices.py:15 | the running-total loop computes the items sum |
| Money.RoundHalfEven | utils/calc_prices.py:21 | the result is within half a unit of the exact quotient, and is even on a tie |
| Money.RoundHalfEvenUnique | utils/calc_prices.py:21 | any integer that is nearest and even on a tie is the rounded value, so the rounding is fully determined |
| Money.FloatStrRoundTrip | routers/orders.py:163 | reading back the printed form of a stored total gives the same number of cents, for negative amounts too |
| Money.FloatStrInjective | routers/orders.py:163 | two different totals never print the same text, so the amount check compares amounts |
| Money.FloatStrWholeAmount | routers/orders.py:163-169 | a whole total 138.00 prints as "138.0", never as "138.00" |
| Money.FloatStrTrailingZero | routers/orders.py:163-169 | 67.50 prints as "67.5" and 0.05 as "0.05" |
| ObjectIds.Parse | routers/orders.py:30 | text converts exactly when it is 24 hexadecimal digits; the id is their lower-case form |
| ObjectIds.ParseCanonical | routers/orders.py:30 | the canonical lower-case text of an id converts to itself |
| ObjectIds.ParseIdempotent | routers/orders.py:30 | converting the text of a converted id gives the same id |
| ObjectIds.ParseCaseInsensitive | routers/orders.py:30 | texts that differ only in letter case name the same id |
| Store.LookupById | routers/orders.py:148-160 | `get(ObjectId(text))` returns the first document with that id; an unconvertible text or an absent id is 404 with the endpoint's detail |
| Store.LookupFindsTheDocument | routers/orders.py:148-160 | with unique ids, a text naming a stored document finds exactly that document |
| OrderModel.NewOrder | models/order.py:35-52 | a new order is unpaid, undelivered and has no payment result; its four prices default to zero; both timestamps are the creation time |
| OrderModel.Save | models/order.py:58-61 | saving stamps `updatedAt` and changes nothing else |
| OrderModel.PricedLines | routers/orders.py:46-55 | the lines handed to `calc_prices` are the order items' price and quantity, in order |
| OrderModel.NewOrderConsistent | models/order.py:41-50 | a new order's paid and delivered flags agree with their timestamps, and it uses no transaction |
| OrderSerializer.SerializeOrderItem | utils/order_serializer.py:4-12 | a line item goes out with the keys name, qty, image, price, product |
| OrderSerializer.SerializeShippingAddress | utils/order_serializer.py:15-22 | the address goes out with the camel-case key `postalCode` |
| OrderSerializer.SerializePaymentResult | utils/order_serializer.py:25-34 | a missing payment result goes out as null, and only then; otherwise its keys are id, status, update_time, email_address |
| OrderSerializer.SerializeOrder | utils/order_serializer.py:37-56 | the order goes out as one object of sixteen members, `_id` and `user` first, then the items, with totalPrice, isPaid and isDelivered in their places |
| OrderSerializer.ItemsRoundTrip | utils/order_serializer.py:4-12 | the serialized items decode back to the same items |
| OrderSerializer.PaymentResultRoundTrip | utils/order_serializer.py:25-34 | a serialized payment result, present or absent, decodes back to itself |
| OrderSerializer.AddressRoundTrip | utils/order_serializer.py:15-22 | a serialized address decodes back to itself |
| OrderSerializer.OrderRoundTrip | utils/order_serializer.py:37-56 | the response loses nothing: decoding a serialized order gives the order back |
| OrderSerializer.SerializeOrderKeys | utils/order_serializer.py:37-56 | every order response has the same sixteen keys in the same order |
| OrderSerializer.SerializeOrderInjective | utils/order_serializer.py:37-56 | different orders never serialize to the same response |
| OrderSerializer.IdsReadBack | utils/order_serializer.py:39-43 | the string forms of the order, user and product ids convert back to the same ids |
| PayPal.GetAccessToken | utils/paypal.py:7-34 | the placeholder credentials fail with 500 before any request; otherwise a token comes back exactly when the token request answers 200 |
| PayPal.VerifyPayPalPayment | utils/paypal.py:50-72 | a verdict comes back exactly when a token was obtained, the order query answered 200 and the order has a purchase unit; verified means status COMPLETED; the value is the first unit's amount text; every failure is 500 |
| PayPal.PlaceholderShortCircuits | utils/paypal.py:10-11 | with placeholder credentials the processor's replies do not matter: verification always fails the same way |
| PayPal.StoredIdPaths | models/order.py:40 | a stored order exposes exactly one transaction-id path, under the field's alias `paymentResult`, and only when it has a payment result with an id |
| PayPal.CheckIfNewTransactionAsWritten | utils/paypal.py:37-47 | the guard as written, querying `payment_result.id`: it answers "new" exactly when the query did not fail, whatever the stored orders hold |
| PayPal.AsWrittenGuardAcceptsRecordedTransaction | utils/paypal.py:40-44 | a transaction recorded on a stored order passes the guard as written, while the guard on the stored field name refuses it |
| PayPal.CheckIfNewTransaction | utils/paypal.py:37-47 | the guard querying the stored field name: a transaction is new exactly when the query did not fail and no stored order's payment result carries its id |
| PayPal.GuardFailsClosed | utils/paypal.py:45-47 | when the ledger query fails the transaction is treated as used |
| PayPal.RecordedTransactionIsNotNew | utils/paypal.py:40-44 | a transaction recorded on any order is never new |
| Orders.RepriceItems | routers/orders.py:36-52 | every cart line is matched to the catalog by its product text; success exactly when all lines match, each line keeping the client's name, qty and image but taking the catalog price; otherwise 404 naming the first unmatched product |
| Orders.PlacedOrder | routers/orders.py:55-84 | the new order belongs to the caller, carries the re-priced lines and the address and method asked for, has exactly the prices `calc_prices` gives for its lines, and is unpaid and undelivered |
| Orders.PriceAndPlace | routers/orders.py:36-89 | placing succeeds exactly when every line matches the catalog, and then inserts one order, as described above, and returns it serialized; otherwise 404 "Product … not found" naming the first unmatched line's product |
| Orders.AddOrderItems | routers/orders.py:17-89 | an empty cart is 400 "No order items"; a product text that does not convert is 500 with the conversion's message for the first such line, ahead of any unknown product; with every text converting, a failure is 404 naming the first unmatched line's product; an order is placed exactly when the cart is non-empty and every product text converts and matches the catalog; nothing but the one new order is added |
| Orders.SerializeAll | routers/orders.py:97 | a list response serializes every order, in order |
| Orders.GetMyOrders | routers/orders.py:92-97 | every listed order is the caller's and is stored; every stored order of the caller is listed |
| Orders.GetMyOrdersResponse | routers/orders.py:92-97 | the response is a JSON array; each entry decodes back to one of the caller's stored orders, and every stored order of the caller appears in it serialized |
| Orders.ListingDecodes | routers/orders.py:97 | each entry of a serialized order list decodes to the order at the same place |
| Orders.GetOrderById | routers/orders.py:100-120 | any authenticated caller reads an order exactly when its id resolves; otherwise 404 "Order not found" |
| Orders.GetOrders | routers/orders.py:213-218 | administrators get every order serialized; anyone else is refused with 403; the listing has one entry per stored order, the j-th decoding back to the j-th stored order, and every stored order appears in it |
| Orders.UpdateOrderToPaid | routers/orders.py:123-182 | payment succeeds only after verification, the completed status, the unused-transaction check and the lookup; the printed total equals the processor's amount; only the paid order changes, gaining paid flag, time and payment result |
| Orders.UpdateOrderToDelivered | routers/orders.py:185-210 | non-administrators get 403 before any lookup; for administrators it succeeds exactly when the id resolves, else 404; only that order changes |
| OrderProperties.InsertPreservesValid | routers/orders.py:70-86 | inserting an unpaid order with a fresh id keeps ids unique, flags consistent and transactions unique |
| OrderProperties.CreatePreservesValid | routers/orders.py:17-89 | checkout preserves the store invariant |
| OrderProperties.PayPreservesValid | routers/orders.py:139-180 | payment preserves the store invariant: the guard keeps every transaction on at most one order |
| OrderProperties.DeliverPreservesValid | routers/orders.py:185-210 | delivery preserves the store invariant |
| OrderProperties.PayChecksInOrder | routers/orders.py:131-169 | each failed pay check gives its own error, and an earlier check's failure hides the later ones; when every check passes the payment succeeds |
| OrderProperties.PayChangesOnlyPaymentFields | routers/orders.py:171-180 | payment changes only the paid order's paid flag, paid time, payment result and update time |
| OrderProperties.DeliverChangesOnlyDeliveryFields | routers/orders.py:205-208 | delivery is by an administrator and changes only the order's delivered flag, delivered time and update time |
| OrderProperties.UsedTransactionRefused | routers/orders.py:139-146 | a transaction already recorded is refused, with "Transaction has been used before" once verification passes |
| OrderProperties.StepKeepsTransaction | routers/orders.py:139-180 | a recorded transaction stays recorded through any create, pay or deliver step that does not overwrite it |
| OrderProperties.RunKeepsTransaction | routers/orders.py:139-180 | a recorded transaction stays recorded through any sequence of such steps |
| OrderProperties.PaidTransactionNotReaccepted | routers/orders.py:139-146 | after a successful payment, the same transaction id is refused by every later payment, whatever happened in between, as long as it was not overwritten |
| OrderProperties.RepayReleasesTransaction | routers/orders.py:171-180 | paying an already paid order overwrites its payment result, after which the earlier transaction counts as new again |
| OrderProperties.MineIsExactlyTheCallersOrders | routers/orders.py:92-97 | the caller's list holds each of the caller's orders exactly as often as the store does, and no other order |
| OrderProperties.RepriceIgnoresClientPrice | routers/orders.py:46-52 | carts that differ only in client prices re-price identically |
| OrderProperties.ClientPriceIgnored | routers/orders.py:17-89 | the client's prices have no effect on the checkout's outcome |
| OrderProperties.NonCanonicalProductTextNotFound | routers/orders.py:30-44 | with canonically stored products, an upper-case product id converts but makes the checkout fail |
| OrderProperties.CheckoutWorkedExample | routers/orders.py:36-84 | two units at 60.00 give an order of 120.00 + 0 + 18.00 = 138.00, whatever price the client sent |
| ProductModel.NewReview | models/product.py:7-19 | a review is built exactly when its rating is 1 to 5; otherwise validation fails (500) |
| ProductModel.NewProduct | models/product.py:21-49 | a product is built exactly when its price is non-negative; it starts with no reviews, rating 0 and count 0 |
| ProductModel.Save | models/product.py:55-58 | saving stamps `updatedAt` and changes nothing else |
| ProductModel.RatingSumBounds | models/product.py:9 | the ratings of n valid reviews sum to between n and 5n |
| ProductModel.MeanRatingBounds | routers/products.py:284-285 | the mean rating of valid reviews lies between 1 and 5 |
| Products.Views | schemas/product.py:52-69 | catalog responses project every product, in order |
| Products.ViewOmitsOnlyReviews | schemas/product.py:52-69 | two products have the same response exactly when they differ at most in their reviews |
| Products.PageCount | routers/products.py:61 | the page count is ceil(count / 12), and 1 for an empty result |
| Products.Window | routers/products.py:50-59 | a page holds at most 12 products, the run starting 12 × (page − 1) into the result, empty past the end |
| Products.GetProducts | routers/products.py:43-84 | a page number below 1 is 422; otherwise the page holds the requested window of the matching products, with the page number and the page count |
| Products.FirstPagesArePrefix | routers/products.py:50-59 | the first n pages together are the first 12n products of the result |
| Products.PagesPartitionResult | routers/products.py:59-61 | the pages up to the page count together are exactly the whole result |
| Products.PageWithinCount | routers/products.py:59-61 | pages past the page count are empty, and every page up to it holds a product when the result is non-empty |
| Products.ListedProductsMatch | routers/products.py:54-59 | every listed product is in the catalog and, when a keyword is given, matches it |
| Products.InsertByRating | routers/products.py:21 | inserting into a list sorted by descending rating keeps it sorted and adds exactly that product |
| Products.SortByRating | routers/products.py:21 | the catalog sorted by descending rating is a permutation of it |
| Products.TopProducts | routers/products.py:21 | the top list holds min(3, catalog size) products from the catalog, in descending rating |
| Products.TopProductsAreTop | routers/products.py:21 | no product left out of the top list is rated above any listed one |
| Products.GetTopProducts | routers/products.py:18-40 | at most three responses, in descending rating |
| Products.FindProduct | routers/products.py:87-104 | the first product whose id the text names; 404 "Product not found" exactly when none does |
| Products.GetProductById | routers/products.py:87-118 | a product is returned exactly when the id text names one; it is the first such product |
| Products.CreateProduct | routers/products.py:121-155 | administrators only (else 403); appends one product owned by the caller, with the request's fields and no reviews; a negative price fails validation (500) |
| Products.EmptyBodyCreatesSample | schemas/product.py:7-14 | an administrator's create with every field omitted stores "Sample name", price 0, "/images/sample.jpg", "Sample brand", "Sample category", 0 in stock, "Sample description", owned by the caller and unreviewed |
| Products.CreatedProductIsFound | routers/products.py:121-155 | the product just created is returned when fetched by its id |
| Products.UpdateProduct | routers/products.py:158-210 | administrators only (else 403); 404 exactly when no product matches; otherwise only that product changes, by the patch and a new update time |
| Products.PatchFields | routers/products.py:179-192 | text fields change only when the request gives a non-empty value; price and stock change whenever given; nothing else changes |
| Products.PatchIdempotent | routers/products.py:179-192 | applying the same patch twice is the same as once |
| Products.EmptyPatchIsIdentity | routers/products.py:179-192 | a patch with nothing to change leaves the product as it was |
| Products.UpdateMayBreakPriceBound | routers/products.py:181-182 | a patch can give a product a negative price, which creation forbids |
| Products.DeleteProduct | routers/products.py:213-235 | administrators only (else 403); 404 exactly when no product matches; otherwise removes that product and nothing else |
| Products.DeletedProductIsGone | routers/products.py:213-235 | with unique ids, a deleted product can no longer be fetched |
| Products.CreateProductReview | routers/products.py:238-289 | a rating outside 1..5 is 422; a missing product is 404; the review is added exactly when the caller has not yet reviewed that product; the product gains one review and its count and mean are recomputed |
| Products.AddReviewAt | routers/products.py:272-289 | the review is appended, the count is the new length, the rating is the new mean, and nothing else changes |
| Products.ConsistentRatingInBounds | routers/products.py:281-285 | a product whose review fields are consistent is rated between 0 and 5 |
| Products.CreateEstablishesConsistency | routers/products.py:121-155 | a new product's review fields are consistent |
| Products.UpdatePreservesConsistency | routers/products.py:179-192 | a patch keeps the review fields consistent |
| Products.ReviewPreservesConsistency | routers/products.py:259-287 | adding a review keeps every product's review fields consistent: one review per user, the count and the mean |
| Products.SecondReviewRefused | routers/products.py:259-269 | the same caller's second review of a product is refused with 400 "Product already reviewed" |
| Users.FindByEmail | routers/users.py:18 | the first user, in store order, with that email; none exactly when no user has it |
| Users.AuthUser | routers/users.py:15-33 | login succeeds exactly when the first account with the email accepts the password, returning that account; otherwise 401 "Invalid email or password" |
| Users.AuthChecksFirstAccountOnly | routers/users.py:18-20 | when the first account with an email rejects the password, a later account with the same email is never tried |
| Users.RegisterUser | routers/users.py:36-62 | registration fails with 400 "User already exists" exactly when the email is taken; otherwise it appends one non-administrator user |
| Users.RegisterTwiceRefused | routers/users.py:39-45 | registering the same email twice is refused |
| Users.RegisteredUserCanLogIn | routers/users.py:15-62 | a newly registered user logs in with the same password and gets the same response |
| Users.RegisterPreservesEmailsUnique | routers/users.py:39-53 | registration keeps emails unique |
| Users.UpdateUserProfile | routers/users.py:83-103 | name, email and password change only when given non-empty; the role and id never change; only the caller's document changes |
| Users.ProfileUpdateKeepsRole | routers/users.py:89-96 | a profile update never changes anyone's administrator flag |
| Users.ProfileUpdateMayDuplicateEmail | routers/users.py:91-92 | a profile update may take another user's email, breaking email uniqueness |
| Users.FindUser | routers/users.py:154-166 | the first user whose id the text names; 404 "User not found" exactly when none does |
| Users.GetUserById | routers/users.py:151-173 | administrators only (else 403); the user is returned exactly when the id names one, else 404 |
| Users.UpdateUser | routers/users.py:176-211 | administrators only (else 403); 404 exactly when no user matches; name and email change when given non-empty; the role changes whenever given; password and id never change |
| Users.DeleteUser | routers/users.py:123-148 | administrators only (else 403); 404 when no user matches; an administrator is never deleted (400); otherwise exactly that user is removed |
| Users.DeleteKeepsAdmins | routers/users.py:140-146 | deletion leaves the administrators, in order, untouched |
| Users.DeletedUserIsGone | routers/users.py:123-173 | with unique ids, a deleted user can no longer be fetched |
| Users.DemoteThenDelete | routers/users.py:140-146 | an administrator can be deleted once an update has removed the role |
| UserModel.NewUser | routers/users.py:47-51 | a registered user is never an administrator |
| Upload.Name | routers/upload.py:25 | the final path component has no slash and is never "." |
| Upload.Suffix | routers/upload.py:25 | the suffix is empty or a tail of the name that starts at its last dot, the dot being neither first nor last |
| Upload.UploadFile | routers/upload.py:13-52 | no file is 400; a lower-cased suffix outside the six image types is 400 listing them; a failed write is 500; otherwise the reply names `/uploads/<uuid><suffix>` |
| Upload.UpperCaseSuffixAccepted | routers/upload.py:25-35 | "photo.PNG" is accepted and stored with ".png" |
| Upload.OnlyTheLastSuffixCounts | routers/upload.py:25-27 | "cat.png.exe" has the suffix ".exe" and is refused |
| Upload.DotFileHasNoSuffix | routers/upload.py:25-27 | ".png" has no suffix and is refused |
| Upload.NameDropsTrailingSlash | routers/upload.py:25 | a trailing slash does not change the final component |
| Upload.TrailingSlashIgnored | routers/upload.py:25 | "images/cat.jpg/" still has the suffix ".jpg" |
| Upload.ReturnedPathRevalidates | routers/upload.py:34-52 | the returned image path has the accepted suffix, so it would itself pass the check |

## Left out

- HTTP and dependency injection. Authentication, the current-user lookup and
  `require_admin` are the `Principal` parameter; middleware/auth.py is not
  part of this model, so the administrator refusal is taken as 403 "Not
  authorized as an admin".
- The network. The PayPal token and order replies are parameters, and so is
  the failure of the ledger query.
- Float arithmetic. Amounts are exact cents, so representation error is not
  modelled. A double holds 15 significant digits exactly, so `str()` of a
  total matches `Money.FloatStr` only below 1e13 dollars (1e15 cents); past
  that the last digits can differ, and from 1e16 dollars Python prints
  exponent notation.
- Concurrency. Every request runs alone. Two payments racing between the
  ledger check and the save are not modelled.
- Password hashing, JWT issue and cookies. The password check is the `verify`
  parameter of `Users.AuthUser`; models/user.py is not part of this model.
  The token is not modelled, and neither is utils/generate_token.py.
- The clock and `uuid4`. The time and the fresh ids are parameters; fresh ids
  are required to be unused. Each request uses one instant `now`, while the
  code reads the clock separately for each timestamp field
  (models/order.py:49-50, models/product.py:12-13 and 33-34, the paid and
  delivered times at routers/orders.py:172 and 206) and again in `save()`
  (models/order.py:60, models/product.py:57). Equalities between timestamps,
  such as `createdAt == updatedAt` in `OrderModel.NewOrder` or
  `paidAt == Some(now) && updatedAt == now` in
  `OrderProperties.PayChangesOnlyPaymentFields`, hold only up to the time
  between those reads.
- UserModel.NewUser and UserModel.Save: models/user.py is not part of this
  model; the user's timestamps and its `save()` are taken to behave like the
  order's (models/order.py:49-50, 58-61).
- Writing the uploaded file. Its failure is the `writeError` parameter.
- The separate save of the review document (routers/products.py:279). Only
  the copy embedded in the product is modelled.
- `logout_user`, `get_user_profile` and `get_users`. They only echo stored
  data or clear a cookie.
- The order of names in the "Invalid file type" message. It depends on set
  iteration order, so it is the `allowedOrder` parameter.
- Upload.UploadFile: lower-casing covers ASCII letters only, and path
  parsing covers the empty and "." components.
- ObjectId construction from 12-byte values or other non-text forms.
- Products.GetProducts: the case-insensitive regular-expression keyword
  match is the `nameMatches` parameter.
- Products.TopProducts: the database's order among equally rated products
  is not fixed. The contract states the descending order and the top-3
  property, not which tied product is chosen.
- Products.GetTopProducts: states the count bound and the descending order
  only, for the same reason.
- FastAPI's own 422 for a missing upload file, raised before the handler runs.
  The handler's 400 branch is modelled as written.
- Request-schema validation other than the review rating and the page number,
  which become the modelled 422 answers.
- OrderProperties.PaidTransactionNotReaccepted: requires that no later step
  overwrites the recorded payment result (`NeverReleased`), because
  re-paying an already paid order does release it
  (`OrderProperties.RepayReleasesTransaction`).
- PayPal.CheckIfNewTransaction: queries the stored field name
  `paymentResult.id`, not the `payment_result.id` the code sends, so the
  payment rules built on it (`Orders.UpdateOrderToPaid`,
  `OrderProperties.PayPreservesValid`, `OrderProperties.UsedTransactionRefused`,
  `OrderProperties.PaidTransactionNotReaccepted`) describe the guard the code
  evidently intends; the code as written is `PayPal.CheckIfNewTransactionAsWritten`.
  Paying order A with transaction T and then order B with the same T pays B
  in the code as written, while `Orders.UpdateOrderToPaid` answers 400
  "Transaction has been used before".
- The text of a 500. The global handler (main.py:69-77) sends `str(exc)` only
  when `NODE_ENV` is "development", the default (config/settings.py:14); the
  model assumes that mode. In any other mode every 500 carries "Internal
  server error", and only the status of the model's 500s holds.
- Products.GetProducts: the 422 for a page number below 1 is raised by the
  framework's request validation (routers/products.py:46) before the handler
  runs, and its body is a list of error objects; the model's detail
  `PageNumberTooSmall` only names the failed check. The status is as the
  program sends it.
- Products.CreateProductReview: likewise, the 422 for a rating outside 1..5
  comes from request validation of the review schema (schemas/product.py:34),
  and the detail `ReviewRatingOutOfRange` only names the failed check.
- Orders.AddOrderItems: the 500 detail `Orders.InvalidIdMessage` quotes the
  product text in single quotes as it stands. Python's `%r` switches to
  double quotes when the text holds a single quote and no double quote, and
  escapes backslashes and control characters; those texts are not modelled.
  The detail also assumes development mode, as above.
- Products.GetProductById: a stored product with a negative price (left by a
  patch) fails validation on load, and the bare `except` turns that into 404
  "Product not found"; the model returns the product.
- Products.UpdateProduct, Products.DeleteProduct and
  Products.CreateProductReview: the same failed load makes these 404 as well;
  the model finds the product.
- Products.GetProducts: a page holding a product with a negative price fails
  validation on load, which the global handler answers with 500; the model
  returns the page.
- Products.GetTopProducts: the same 500 when one of the top three has a
  negative price; the model returns them.
- Orders.RepriceItems: the same 500 when the cart names a product with a
  negative price, so Orders.AddOrderItems fails there too; the model prices
  the line.
- OrderProperties.Apply: a create step with an id already in use is
  skipped, since fresh ids are an assumption about `uuid`/ObjectId
  generation.

## Findings

| source | as written | input that shows it | evidently intended | confidence | as-written member | corrected member |
|---|---|---|---|---|---|---|
| utils/paypal.py:40-42 | the ledger query asks for `payment_result.id`, while the order stores its payment result under the alias `paymentResult` (models/order.py:40), so the query never matches | pay order A with transaction T; then pay order B with the same T: the guard finds no order and lets T through again | a transaction recorded on any order is refused ("Transaction has been used before") | medium; not executed | PayPal.CheckIfNewTransactionAsWritten, PayPal.AsWrittenGuardAcceptsRecordedTransaction | PayPal.CheckIfNewTransaction |

=== FILE: calc_prices.dfy ===
/** The price calculator: a pure function from priced lines to the order's
    money breakdown. Amounts are cents; the subtotal of cent prices times
    integer quantities is exact, so rounding it to two decimals changes
    nothing and only the 15% tax needs an explicit rounding. */
module CalcPrices {
  import Money

  /** One line as the calculator sees it: unit price in cents and quantity.
      Neither is validated here; the quantity is not bounded by the request
      schema either. */
  datatype PricedLine = PricedLine(price: int, qty: int)

  datatype Prices = Prices(itemsPrice: int, shippingPrice: int, taxPrice: int, totalPrice: int)

  /** Free shipping applies strictly above 100.00. */
  const FreeShippingThreshold := 10000
  const FlatShipping := 1000
  const TaxPercent := 15

  function LineTotal(l: PricedLine): int {
    l.price * l.qty
  }

  /** Σ price × qty over the lines, accumulated left to right. */
  function Subtotal(lines: seq<PricedLine>): int {
    if |lines| == 0 then 0 else Subtotal(lines[..|lines| - 1]) + LineTotal(lines[|lines| - 1])
  }

  lemma {:induction false} SubtotalAppend(a: seq<PricedLine>, b: seq<PricedLine>)
    ensures Subtotal(a + b) == Subtotal(a) + Subtotal(b)
    decreases |b|
  {
    if |b| > 0 {
      var b' := b[..|b| - 1];
      assert (a + b)[..|a + b| - 1] == a + b';
      SubtotalAppend(a, b');
    } else {
      assert a + b == a;
    }
  }

  /** Lines with non-negative prices and quantities never have a negative
      subtotal. */
  lemma {:induction false} SubtotalNonNegative(lines: seq<PricedLine>)
    requires forall i :: 0 <= i < |lines| ==> lines[i].price >= 0 && lines[i].qty >= 0
    ensures Subtotal(lines) >= 0
  {
    if |lines| > 0 {
      SubtotalNonNegative(lines[..|lines| - 1]);
    }
  }

  /** The calculator. */
  function CalcPrices(lines: seq<PricedLine>): (r: Prices)
    ensures r.itemsPrice == Subtotal(lines)
    ensures r.shippingPrice == 0 <==> Subtotal(lines) > FreeShippingThreshold
    ensures r.shippingPrice == 0 || r.shippingPrice == FlatShipping
    ensures 2 * Money.Abs(100 * r.taxPrice - TaxPercent * Subtotal(lines)) <= 100
    ensures r.totalPrice == r.itemsPrice + r.shippingPrice + r.taxPrice
  {
    var items := Subtotal(lines);
    var shipping := if items > FreeShippingThreshold then 0 else FlatShipping;
    var tax := Money.RoundHalfEven(TaxPercent * items, 100);
    Prices(items, shipping, tax, items + shipping + tax)
  }

  /** The tax is exactly the rounding of 15% of the unrounded subtotal, with
      a half-cent tie going to the even cent. */
  lemma TaxIsRoundedFifteenPercent(lines: seq<PricedLine>, t: int)
    requires 2 * Money.Abs(100 * t - TaxPercent * Subtotal(lines)) <= 100
    requires 2 * Money.Abs(100 * t - TaxPercent * Subtotal(lines)) == 100 ==> t % 2 == 0
    ensures CalcPrices(lines).taxPrice == t
  {
    var n := TaxPercent * Subtotal(lines);
    assert n - t * 100 == -(100 * t - n);
    Money.RoundHalfEvenUnique(n, 100, t);
  }

  /** The calculator does no validation: an empty list pays only shipping. */
  lemma EmptyCart()
    ensures CalcPrices([]) == Prices(0, FlatShipping, 0, FlatShipping)
  {
  }

  /** A subtotal of exactly 100.00 still pays shipping. */
  lemma ThresholdIsStrict()
    ensures CalcPrices([PricedLine(10000, 1)]).shippingPrice == FlatShipping
    ensures CalcPrices([PricedLine(10001, 1)]).shippingPrice == 0
  {
  }

  /** Non-negative lines give a total at least the subtotal. */
  lemma TotalCoversItems(lines: seq<PricedLine>)
    requires forall i :: 0 <= i < |lines| ==> lines[i].price >= 0 && lines[i].qty >= 0
    ensures 0 <= CalcPrices(lines).taxPrice
    ensures CalcPrices(lines).itemsPrice <= CalcPrices(lines).totalPrice
  {
    SubtotalNonNegative(lines);
  }

  /** The two worked checkouts: two units at 60.00, and one unit at 50.00. */
  lemma WorkedExamples()
    ensures CalcPrices([PricedLine(6000, 2)]) == Prices(12000, 0, 1800, 13800)
    ensures CalcPrices([PricedLine(5000, 1)]) == Prices(5000, 1000, 750, 6750)
  {
  }

  /** The generator-expression sum as a loop over the lines. */
  method SumLines(lines: seq<PricedLine>) returns (total: int)
    ensures total == Subtotal(lines)
  {
    total := 0;
    var i := 0;
    while i < |lines|
      invariant 0 <= i <= |lines|
      invariant total == Subtotal(lines[..i])
    {
      assert lines[..i + 1][..i] == lines[..i];
      total := total + LineTotal(lines[i]);
      i := i + 1;
    }
    assert lines[..|lines|] == lines;
  }
}

=== FILE: money.dfy ===
/** Money as integer cents. The service keeps prices in Python floats and
    rounds with `round(x, 2)`; here an amount is the exact number of cents, the
    rounding is an explicit function, and `str()` of a two-decimal float is an
    explicit formatting function with a parser that inverts it. */
module Money {
  import opened Wrappers
  import Seqs

  function Abs(x: int): nat {
    if x < 0 then -x else x
  }

  /** `n / d` rounded to the nearest integer, a tie going to the even
      neighbour, as Python's `round` does on an exact value. */
  function RoundHalfEven(n: int, d: int): (r: int)
    requires d > 0
    ensures 2 * Abs(n - r * d) <= d
    ensures 2 * Abs(n - r * d) == d ==> r % 2 == 0
  {
    var q := n / d;
    var rem := n % d;
    assert n - q * d == rem;
    assert n - (q + 1) * d == rem - d;
    if 2 * rem < d then q
    else if 2 * rem > d then q + 1
    else if q % 2 == 0 then q
    else q + 1
  }

  lemma MulSubDistributes(a: int, b: int, d: int)
    ensures (a - b) * d == a * d - b * d
  {
  }

  lemma MulAtLeastTwice(a: int, d: int)
    requires a >= 2 && d > 0
    ensures a * d >= 2 * d
  {
    assert a * d == 2 * d + (a - 2) * d;
  }

  /** Two nearest-integer candidates for the same quotient differ by at
      most one. */
  lemma NearCandidatesAdjacent(e: int, e': int, gap: int, d: int)
    requires d > 0
    requires 2 * Abs(e) <= d && 2 * Abs(e') <= d
    requires gap * d == e' - e
    ensures -1 <= gap <= 1
    ensures gap != 0 ==> 2 * Abs(e) == d && 2 * Abs(e') == d
  {
    if gap >= 2 {
      MulAtLeastTwice(gap, d);
    } else if gap <= -2 {
      MulAtLeastTwice(-gap, d);
    } else if gap == 1 {
      assert e' - e == d;
    } else if gap == -1 {
      assert e' - e == -d;
    }
  }

  /** Nearest-with-ties-to-even determines the rounded value: any integer
      with both properties is the one `RoundHalfEven` returns. */
  lemma RoundHalfEvenUnique(n: int, d: int, r: int)
    requires d > 0
    requires 2 * Abs(n - r * d) <= d
    requires 2 * Abs(n - r * d) == d ==> r % 2 == 0
    ensures r == RoundHalfEven(n, d)
  {
    var r' := RoundHalfEven(n, d);
    var gap := r - r';
    MulSubDistributes(r, r', d);
    NearCandidatesAdjacent(n - r * d, n - r' * d, gap, d);
  }

  lemma RoundHalfEvenExact(n: int, d: int)
    requires d > 0 && n % d == 0
    ensures RoundHalfEven(n, d) == n / d
  {
  }

  // ----- decimal digits -----

  predicate IsDigit(c: char) {
    '0' <= c <= '9'
  }

  predicate AllDigits(s: string) {
    forall i :: 0 <= i < |s| ==> IsDigit(s[i])
  }

  function DigitChar(d: nat): (c: char)
    requires d < 10
    ensures IsDigit(c)
  {
    ('0' as int + d) as char
  }

  function DigitValue(c: char): (d: nat)
    requires IsDigit(c)
    ensures d < 10
  {
    c as int - '0' as int
  }

  /** The decimal numeral of `n`, without leading zeros. */
  function NatToDigits(n: nat): (s: string)
    ensures |s| >= 1 && AllDigits(s)
    ensures |s| > 1 ==> s[0] != '0'
  {
    if n < 10 then [DigitChar(n)] else NatToDigits(n / 10) + [DigitChar(n % 10)]
  }

  /** The value of a decimal numeral. */
  function DigitsToNat(s: string): nat
    requires AllDigits(s)
  {
    if |s| == 0 then 0 else DigitsToNat(s[..|s| - 1]) * 10 + DigitValue(s[|s| - 1])
  }

  lemma {:induction false} DigitsRoundTrip(n: nat)
    ensures DigitsToNat(NatToDigits(n)) == n
  {
    if n >= 10 {
      DigitsRoundTrip(n / 10);
      var s := NatToDigits(n);
      assert s[..|s| - 1] == NatToDigits(n / 10);
    }
  }

  // ----- str() of a two-decimal float -----

  /** The digits after the point that `str()` prints for a cent count below
      100: one digit when the second would be a trailing zero. */
  function CentsDigits(cents: nat): (s: string)
    requires cents < 100
    ensures 1 <= |s| <= 2 && AllDigits(s)
  {
    if cents % 10 == 0 then [DigitChar(cents / 10)]
    else [DigitChar(cents / 10), DigitChar(cents % 10)]
  }

  function UnsignedAmountStr(c: nat): string {
    NatToDigits(c / 100) + "." + CentsDigits(c % 100)
  }

  /** `str(x)` for the float `x` holding `c` cents: the shortest decimal that
      reads back as `x`, so 138.00 prints as "138.0" and 67.50 as "67.5". */
  function FloatStr(c: int): string {
    if c < 0 then "-" + UnsignedAmountStr(-c) else UnsignedAmountStr(c)
  }

  // ----- reading an amount back -----

  predicate IsDot(c: char) {
    c == '.'
  }

  function ParseUnsignedAmount(s: string): Option<nat> {
    match Seqs.FirstIndex(s, IsDot)
    case None => None
    case Some(k) =>
      var whole, frac := s[..k], s[k + 1..];
      if |whole| >= 1 && AllDigits(whole) && 1 <= |frac| <= 2 && AllDigits(frac) then
        Some(DigitsToNat(whole) * 100
             + (if |frac| == 1 then 10 * DigitValue(frac[0]) else DigitsToNat(frac)))
      else None
  }

  /** Reads a decimal amount with one or two digits after the point as a
      number of cents. */
  function ParseAmount(s: string): Option<int> {
    if |s| >= 1 && s[0] == '-' then
      match ParseUnsignedAmount(s[1..])
      case None => None
      case Some(v) => Some(0 - v)
    else
      match ParseUnsignedAmount(s)
      case None => None
      case Some(v) => Some(v)
  }

  /** The digits after the point read back as the cent count they print. */
  lemma CentsDigitsRoundTrip(cents: nat)
    requires cents < 100
    ensures var f := CentsDigits(cents);
            (if |f| == 1 then 10 * DigitValue(f[0]) else DigitsToNat(f)) == cents
  {
    var f := CentsDigits(cents);
    if |f| == 2 {
      assert f[..1] == [DigitChar(cents / 10)];
      assert DigitsToNat(f[..1]) == cents / 10;
    }
  }

  /** A numeral, a point and more digits split at that point. */
  lemma SplitAtPoint(w: string, f: string)
    requires AllDigits(w) && AllDigits(f)
    ensures var s := w + "." + f;
            Seqs.FirstIndex(s, IsDot) == Some(|w|) && s[..|w|] == w && s[|w| + 1..] == f
  {
    var s := w + "." + f;
    assert s[|w|] == '.';
    assert forall j :: 0 <= j < |w| ==> s[j] == w[j] && !IsDot(s[j]);
  }

  lemma UnsignedRoundTrip(c: nat)
    ensures ParseUnsignedAmount(UnsignedAmountStr(c)) == Some(c)
  {
    var w, f := NatToDigits(c / 100), CentsDigits(c % 100);
    SplitAtPoint(w, f);
    DigitsRoundTrip(c / 100);
    CentsDigitsRoundTrip(c % 100);
  }

  lemma UnsignedAmountStrStartsWithDigit(c: nat)
    ensures IsDigit(UnsignedAmountStr(c)[0])
  {
    var w := NatToDigits(c / 100);
    assert UnsignedAmountStr(c)[0] == w[0];
  }

  lemma ParseNegative(u: string, v: nat)
    requires ParseUnsignedAmount(u) == Some(v)
    ensures ParseAmount("-" + u) == Some(0 - v)
  {
    assert ("-" + u)[1..] == u;
  }

  lemma ParseNonNegative(u: string, v: nat)
    requires |u| >= 1 && IsDigit(u[0])
    requires ParseUnsignedAmount(u) == Some(v)
    ensures ParseAmount(u) == Some(v)
  {
  }

  lemma NegativeRoundTrip(c: int)
    requires c < 0
    ensures ParseAmount(FloatStr(c)) == Some(c)
  {
    var u := UnsignedAmountStr(-c);
    assert FloatStr(c) == "-" + u;
    UnsignedRoundTrip(-c);
    ParseNegative(u, -c);
  }

  lemma NonNegativeRoundTrip(c: nat)
    ensures ParseAmount(FloatStr(c)) == Some(c)
  {
    var u := UnsignedAmountStr(c);
    UnsignedRoundTrip(c);
    UnsignedAmountStrStartsWithDigit(c);
    ParseNonNegative(u, c);
  }

  /** Reading the printed amount gives back the amount. */
  lemma FloatStrRoundTrip(c: int)
    ensures ParseAmount(FloatStr(c)) == Some(c)
  {
    if c < 0 {
      NegativeRoundTrip(c);
    } else {
      NonNegativeRoundTrip(c);
    }
  }

  /** Distinct amounts never print alike, so a textual comparison against a
      printed amount accepts at most one amount. */
  lemma FloatStrInjective(a: int, b: int)
    requires FloatStr(a) == FloatStr(b)
    ensures a == b
  {
    FloatStrRoundTrip(a);
    FloatStrRoundTrip(b);
  }

  /** A whole amount prints with one zero after the point: a processor
      reporting "138.00" does not match a stored total of 138.00. */
  lemma FloatStrWholeAmount()
    ensures FloatStr(13800) == "138.0"
    ensures FloatStr(13800) != "138.00"
  {
    assert NatToDigits(1) == "1";
    assert NatToDigits(13) == "13";
    assert NatToDigits(138) == "138";
  }

  lemma FloatStrTrailingZero()
    ensures FloatStr(6750) == "67.5"
    ensures FloatStr(5) == "0.05"
  {
    assert NatToDigits(6) == "6";
    assert NatToDigits(67) == "67";
    assert NatToDigits(0) == "0";
  }
}

=== FILE: object_id.dfy ===
/** Document identifiers. A MongoDB ObjectId is written as 24 hexadecimal
    digits; parsing accepts either letter case and `str()` of a parsed id gives
    the canonical lower-case form. Every endpoint that takes an id in its path
    parses it first and reports a malformed id the same way as an absent one. */
module ObjectIds {
  import opened Wrappers

  const IdLength := 24

  predicate IsHexDigit(c: char) {
    ('0' <= c <= '9') || ('a' <= c <= 'f') || ('A' <= c <= 'F')
  }

  predicate IsLowerHexDigit(c: char) {
    ('0' <= c <= '9') || ('a' <= c <= 'f')
  }

  /** Text the ObjectId constructor accepts. */
  predicate IsObjectIdText(s: string) {
    |s| == IdLength && forall i :: 0 <= i < |s| ==> IsHexDigit(s[i])
  }

  /** The form `str(ObjectId(...))` produces. */
  predicate IsCanonical(s: string) {
    |s| == IdLength && forall i :: 0 <= i < |s| ==> IsLowerHexDigit(s[i])
  }

  function LowerHex(c: char): (r: char)
    requires IsHexDigit(c)
    ensures IsLowerHexDigit(r)
    ensures IsLowerHexDigit(c) ==> r == c
  {
    if 'A' <= c <= 'F' then (c as int - 'A' as int + 'a' as int) as char else c
  }

  /** `ObjectId(s)` followed by `str(...)`: None when the constructor raises. */
  function Parse(s: string): (r: Option<string>)
    ensures r.Some? <==> IsObjectIdText(s)
    ensures r.Some? ==> IsCanonical(r.value)
    ensures r.Some? ==> forall i :: 0 <= i < IdLength ==> r.value[i] == LowerHex(s[i])
  {
    if IsObjectIdText(s) then
      Some(seq(IdLength, i requires 0 <= i < IdLength => LowerHex(s[i])))
    else None
  }

  /** A canonical id parses to itself: `str(ObjectId(str(x))) == str(x)`. */
  lemma ParseCanonical(s: string)
    requires IsCanonical(s)
    ensures Parse(s) == Some(s)
  {
    var r := Parse(s);
    assert r.Some?;
    assert forall i :: 0 <= i < IdLength ==> r.value[i] == s[i];
    assert r.value == s;
  }

  /** Parsing is idempotent: re-parsing a parsed id changes nothing. */
  lemma ParseIdempotent(s: string)
    requires Parse(s).Some?
    ensures Parse(Parse(s).value) == Parse(s)
  {
    ParseCanonical(Parse(s).value);
  }

  /** Two texts naming the same id differ at most in letter case. */
  lemma ParseCaseInsensitive(s: string, t: string)
    requires |s| == |t| == IdLength
    requires IsObjectIdText(s) && IsObjectIdText(t)
    requires forall i :: 0 <= i < IdLength ==> LowerHex(s[i]) == LowerHex(t[i])
    ensures Parse(s) == Parse(t)
  {
    var a, b := Parse(s).value, Parse(t).value;
    assert forall i :: 0 <= i < IdLength ==> a[i] == b[i];
    assert a == b;
  }
}

=== FILE: order_model.dfy ===
/** The order document: line items with name/price/image snapshots, the
    shipping address, the optional payment confirmation, the money breakdown,
    the paid/delivered flags and timestamps. */
module OrderModel {
  import opened Wrappers
  import CalcPrices

  datatype ShippingAddress = ShippingAddress(address: string, city: string, postalCode: string, country: string)

  /** The processor's confirmation as stored on a paid order; every field may
      be absent. */
  datatype PaymentResult = PaymentResult(
    id: Option<string>,
    status: Option<string>,
    updateTime: Option<string>,
    emailAddress: Option<string>)

  /** A line item. `price` is the unit price in cents; `product` is the
      canonical text of the product's id. */
  datatype OrderItem = OrderItem(name: string, qty: int, image: string, price: int, product: string)

  datatype Order = Order(
    id: string,
    user: string,
    orderItems: seq<OrderItem>,
    shippingAddress: ShippingAddress,
    paymentMethod: string,
    paymentResult: Option<PaymentResult>,
    itemsPrice: int,
    taxPrice: int,
    shippingPrice: int,
    totalPrice: int,
    isPaid: bool,
    paidAt: Option<Time>,
    isDelivered: bool,
    deliveredAt: Option<Time>,
    createdAt: Time,
    updatedAt: Time)

  /** Constructing an order: the money fields come from the given breakdown,
      or default to zero when none is passed; everything else not passed takes
      its declared default, and both timestamps take the request's time `now`. */
  function NewOrder(
    id: string, user: string, items: seq<OrderItem>, address: ShippingAddress,
    paymentMethod: string, prices: Option<CalcPrices.Prices>, now: Time): (o: Order)
    ensures o.id == id && o.user == user && o.orderItems == items
    ensures o.shippingAddress == address && o.paymentMethod == paymentMethod
    ensures o.paymentResult.None?
    ensures prices.None? ==> o.itemsPrice == o.taxPrice == o.shippingPrice == o.totalPrice == 0
    ensures prices.Some? ==> o.itemsPrice == prices.value.itemsPrice && o.taxPrice == prices.value.taxPrice
    ensures prices.Some? ==> o.shippingPrice == prices.value.shippingPrice && o.totalPrice == prices.value.totalPrice
    ensures !o.isPaid && o.paidAt.None? && !o.isDelivered && o.deliveredAt.None?
    ensures o.createdAt == now && o.updatedAt == now
  {
    var p := match prices
      case Some(p) => p
      case None => CalcPrices.Prices(0, 0, 0, 0);
    Order(id, user, items, address, paymentMethod, None,
          p.itemsPrice, p.taxPrice, p.shippingPrice, p.totalPrice,
          false, None, false, None, now, now)
  }

  /** `save()`: refreshes `updatedAt` and nothing else. */
  function Save(o: Order, now: Time): (r: Order)
    ensures r.updatedAt == now
    ensures r.(updatedAt := o.updatedAt) == o
  {
    o.(updatedAt := now)
  }

  /** The priced lines the calculator receives for these items. */
  function PricedLines(items: seq<OrderItem>): (r: seq<CalcPrices.PricedLine>)
    ensures |r| == |items|
    ensures forall i :: 0 <= i < |items| ==> r[i] == CalcPrices.PricedLine(items[i].price, items[i].qty)
  {
    seq(|items|, i requires 0 <= i < |items| => CalcPrices.PricedLine(items[i].price, items[i].qty))
  }

  /** The order records `tx` as its processor transaction. */
  predicate UsesTransaction(o: Order, tx: string) {
    o.paymentResult.Some? && o.paymentResult.value.id == Some(tx)
  }

  /** Lifecycle consistency: a timestamp is set exactly when its flag is. */
  predicate FlagsConsistent(o: Order) {
    (o.isPaid <==> o.paidAt.Some?) && (o.isDelivered <==> o.deliveredAt.Some?)
  }

  lemma NewOrderConsistent(
    id: string, user: string, items: seq<OrderItem>, address: ShippingAddress,
    paymentMethod: string, prices: Option<CalcPrices.Prices>, now: Time)
    ensures FlagsConsistent(NewOrder(id, user, items, address, paymentMethod, prices, now))
    ensures forall tx :: !UsesTransaction(NewOrder(id, user, items, address, paymentMethod, prices, now), tx)
  {
  }
}

=== FILE: order_properties.dfy ===
/** Properties of the order endpoints that relate several calls: the store
    invariants they preserve, the replay guard over any sequence of requests,
    the irrelevance of client-submitted prices, and the order of the pay
    checks. */
module OrderProperties {
  import opened Wrappers
  import opened OrderModel
  import ObjectIds
  import Seqs
  import CalcPrices
  import Money
  import PayPal
  import Store
  import Orders
  import ProductModel

  // ----- invariants -----

  /** Two orders recording the same processor transaction. */
  predicate SameTransaction(a: Order, b: Order) {
    a.paymentResult.Some? && b.paymentResult.Some? && a.paymentResult.value.id.Some?
    && a.paymentResult.value.id == b.paymentResult.value.id
  }

  predicate TransactionsUnique(orders: seq<Order>) {
    forall i, j :: 0 <= i < |orders| && 0 <= j < |orders| && i != j ==> !SameTransaction(orders[i], orders[j])
  }

  /** The order collection's invariant: unique ids, a transaction recorded on
      at most one order, and each timestamp set exactly when its flag is. */
  predicate Valid(orders: seq<Order>) {
    && Store.UniqueIds(orders, Store.OrderId)
    && TransactionsUnique(orders)
    && forall i :: 0 <= i < |orders| ==> FlagsConsistent(orders[i])
  }

  /** Inserting an unpaid order under a fresh id keeps the invariant. */
  lemma InsertPreservesValid(orders: seq<Order>, o: Order)
    requires Valid(orders)
    requires forall i :: 0 <= i < |orders| ==> orders[i].id != o.id
    requires o.paymentResult.None? && FlagsConsistent(o)
    ensures Valid(orders + [o])
  {
    var orders' := orders + [o];
    assert Store.UniqueIds(orders', Store.OrderId) by {
      forall i, j | 0 <= i < j < |orders'| ensures Store.OrderId(orders'[i]) != Store.OrderId(orders'[j]) {
        if j < |orders| {
          assert Store.OrderId(orders[i]) != Store.OrderId(orders[j]);
        }
      }
    }
  }

  lemma CreatePreservesValid(s: Store.Store, caller: Principal, req: Orders.OrderCreate, newId: string, now: Time)
    requires ObjectIds.IsCanonical(newId)
    requires forall i :: 0 <= i < |s.orders| ==> s.orders[i].id != newId
    requires Valid(s.orders)
    requires Orders.AddOrderItems(s, caller, req, newId, now).Ok?
    ensures Valid(Orders.AddOrderItems(s, caller, req, newId, now).value.store.orders)
  {
    var orders' := Orders.AddOrderItems(s, caller, req, newId, now).value.store.orders;
    var o := orders'[|s.orders|];
    assert orders' == s.orders + [o];
    InsertPreservesValid(s.orders, o);
  }

  lemma PayPreservesValid(
    s: Store.Store, caller: Principal, idText: string, pay: Orders.OrderPaymentUpdate,
    cfg: PayPal.PayPalSettings, token: PayPal.TokenReply, reply: PayPal.OrderReply,
    ledgerFailed: bool, now: Time)
    requires Valid(s.orders)
    requires Orders.UpdateOrderToPaid(s, caller, idText, pay, cfg, token, reply, ledgerFailed, now).Ok?
    ensures Valid(Orders.UpdateOrderToPaid(s, caller, idText, pay, cfg, token, reply, ledgerFailed, now).value.store.orders)
  {
    var i := Store.LookupById(s.orders, Store.OrderId, idText, Orders.OrderNotFound).value;
    var orders' := Orders.UpdateOrderToPaid(s, caller, idText, pay, cfg, token, reply, ledgerFailed, now).value.store.orders;
    assert orders' == s.orders[i := Orders.MarkPaid(s.orders[i], pay, now)];
    forall j | 0 <= j < |s.orders| && j != i
      ensures !SameTransaction(orders'[i], orders'[j]) && !SameTransaction(orders'[j], orders'[i])
    {
      assert !UsesTransaction(s.orders[j], pay.id);
    }
  }

  lemma DeliverPreservesValid(s: Store.Store, caller: Principal, idText: string, now: Time)
    requires Valid(s.orders)
    requires Orders.UpdateOrderToDelivered(s, caller, idText, now).Ok?
    ensures Valid(Orders.UpdateOrderToDelivered(s, caller, idText, now).value.store.orders)
  {
    var i := Store.LookupById(s.orders, Store.OrderId, idText, Orders.OrderNotFound).value;
    var orders' := Orders.UpdateOrderToDelivered(s, caller, idText, now).value.store.orders;
    assert orders' == s.orders[i := Orders.MarkDelivered(s.orders[i], now)];
    forall j | 0 <= j < |s.orders| && j != i
      ensures !SameTransaction(orders'[i], orders'[j]) && !SameTransaction(orders'[j], orders'[i])
    {
      assert !SameTransaction(s.orders[i], s.orders[j]) && !SameTransaction(s.orders[j], s.orders[i]);
    }
  }

  // ----- pay: checks and effect -----

  /** The pay checks fire in a fixed order, each before any later one is
      consulted: a used transaction is refused before the order id is even
      looked up. */
  lemma PayChecksInOrder(
    s: Store.Store, caller: Principal, idText: string, pay: Orders.OrderPaymentUpdate,
    cfg: PayPal.PayPalSettings, token: PayPal.TokenReply, reply: PayPal.OrderReply,
    ledgerFailed: bool, now: Time)
    ensures var r := Orders.UpdateOrderToPaid(s, caller, idText, pay, cfg, token, reply, ledgerFailed, now);
            var v := PayPal.VerifyPayPalPayment(cfg, token, reply);
            var lookup := Store.LookupById(s.orders, Store.OrderId, idText, Orders.OrderNotFound);
            && (v.Err? ==> r == Err(v.error))
            && (v.Ok? && !v.value.verified ==> r == Err(HttpError(BadRequest, "Payment not verified")))
            && (v.Ok? && v.value.verified && !PayPal.CheckIfNewTransaction(s.orders, pay.id, ledgerFailed)
                ==> r == Err(HttpError(BadRequest, "Transaction has been used before")))
            && (v.Ok? && v.value.verified && PayPal.CheckIfNewTransaction(s.orders, pay.id, ledgerFailed) && lookup.Err?
                ==> r == Err(HttpError(NotFound, Orders.OrderNotFound)))
            && (v.Ok? && v.value.verified && PayPal.CheckIfNewTransaction(s.orders, pay.id, ledgerFailed) && lookup.Ok?
                && Money.FloatStr(s.orders[lookup.value].totalPrice) != v.value.value
                ==> r == Err(HttpError(BadRequest, "Incorrect amount paid")))
    ensures var v := PayPal.VerifyPayPalPayment(cfg, token, reply);
            var lookup := Store.LookupById(s.orders, Store.OrderId, idText, Orders.OrderNotFound);
            v.Ok? && v.value.verified && PayPal.CheckIfNewTransaction(s.orders, pay.id, ledgerFailed) && lookup.Ok?
            && Money.FloatStr(s.orders[lookup.value].totalPrice) == v.value.value
            ==> Orders.UpdateOrderToPaid(s, caller, idText, pay, cfg, token, reply, ledgerFailed, now).Ok?
  {
  }

  /** A successful pay changes one order only, and on it only the payment
      fields and the update timestamp: the money, the lines, the owner and
      the delivery state stay as they were. */
  lemma PayChangesOnlyPaymentFields(
    s: Store.Store, caller: Principal, idText: string, pay: Orders.OrderPaymentUpdate,
    cfg: PayPal.PayPalSettings, token: PayPal.TokenReply, reply: PayPal.OrderReply,
    ledgerFailed: bool, now: Time)
    requires Orders.UpdateOrderToPaid(s, caller, idText, pay, cfg, token, reply, ledgerFailed, now).Ok?
    ensures var st := Orders.UpdateOrderToPaid(s, caller, idText, pay, cfg, token, reply, ledgerFailed, now).value.store;
            var i := Store.LookupById(s.orders, Store.OrderId, idText, Orders.OrderNotFound).value;
            var o, o' := s.orders[i], st.orders[i];
            && st.products == s.products && st.users == s.users
            && |st.orders| == |s.orders|
            && (forall j :: 0 <= j < |s.orders| && j != i ==> st.orders[j] == s.orders[j])
            && o'.isPaid && o'.paidAt == Some(now) && o'.updatedAt == now
            && o'.paymentResult == Some(PaymentResult(Some(pay.id), Some(pay.status), Some(pay.updateTime), Some(pay.emailAddress)))
            && o'.(isPaid := o.isPaid, paidAt := o.paidAt, paymentResult := o.paymentResult, updatedAt := o.updatedAt) == o
  {
  }

  /** Deliver sets the delivery flag and time and leaves the payment state
      untouched; a non-administrator changes nothing. */
  lemma DeliverChangesOnlyDeliveryFields(s: Store.Store, caller: Principal, idText: string, now: Time)
    requires Orders.UpdateOrderToDelivered(s, caller, idText, now).Ok?
    ensures caller.isAdmin
    ensures var st := Orders.UpdateOrderToDelivered(s, caller, idText, now).value.store;
            var i := Store.LookupById(s.orders, Store.OrderId, idText, Orders.OrderNotFound).value;
            var o, o' := s.orders[i], st.orders[i];
            && |st.orders| == |s.orders|
            && (forall j :: 0 <= j < |s.orders| && j != i ==> st.orders[j] == s.orders[j])
            && o'.isDelivered && o'.deliveredAt == Some(now)
            && o'.isPaid == o.isPaid && o'.paidAt == o.paidAt && o'.paymentResult == o.paymentResult
            && o'.(isDelivered := o.isDelivered, deliveredAt := o.deliveredAt, updatedAt := o.updatedAt) == o
  {
  }

  // ----- replay -----

  /** Some stored order records the transaction. */
  predicate TxUsed(orders: seq<Order>, tx: string) {
    exists i :: 0 <= i < |orders| && UsesTransaction(orders[i], tx)
  }

  /** Once a transaction is recorded, a pay presenting it is refused: by the
      processor checks, or else as a used transaction. */
  lemma UsedTransactionRefused(
    s: Store.Store, caller: Principal, idText: string, pay: Orders.OrderPaymentUpdate,
    cfg: PayPal.PayPalSettings, token: PayPal.TokenReply, reply: PayPal.OrderReply,
    ledgerFailed: bool, now: Time)
    requires TxUsed(s.orders, pay.id)
    ensures var r := Orders.UpdateOrderToPaid(s, caller, idText, pay, cfg, token, reply, ledgerFailed, now);
            var v := PayPal.VerifyPayPalPayment(cfg, token, reply);
            && r.Err?
            && (v.Ok? && v.value.verified ==> r.error == HttpError(BadRequest, "Transaction has been used before"))
  {
    var i :| 0 <= i < |s.orders| && UsesTransaction(s.orders[i], pay.id);
    PayPal.RecordedTransactionIsNotNew(s.orders, pay.id, i, ledgerFailed);
  }

  /** A request against the order collection, with everything the model
      takes from outside (processor answers, clock, fresh id). */
  datatype OrderOp =
    | CreateOp(caller: Principal, req: Orders.OrderCreate, newId: string, now: Time)
    | PayOp(caller: Principal, idText: string, pay: Orders.OrderPaymentUpdate,
            cfg: PayPal.PayPalSettings, token: PayPal.TokenReply, reply: PayPal.OrderReply,
            ledgerFailed: bool, now: Time)
    | DeliverOp(caller: Principal, idText: string, now: Time)

  predicate FreshOrderId(s: Store.Store, id: string) {
    ObjectIds.IsCanonical(id) && forall i :: 0 <= i < |s.orders| ==> s.orders[i].id != id
  }

  /** The store after one request: the new store on success, the old one on
      any error. A create whose id the store would not assign is no step. */
  function Apply(s: Store.Store, op: OrderOp): Store.Store {
    match op
    case CreateOp(c, req, id, now) =>
      if !FreshOrderId(s, id) then s
      else (match Orders.AddOrderItems(s, c, req, id, now)
        case Ok(out) => out.store
        case Err(_) => s)
    case PayOp(c, idText, pay, cfg, token, reply, failed, now) =>
      (match Orders.UpdateOrderToPaid(s, c, idText, pay, cfg, token, reply, failed, now)
       case Ok(out) => out.store
       case Err(_) => s)
    case DeliverOp(c, idText, now) =>
      match Orders.UpdateOrderToDelivered(s, c, idText, now)
      case Ok(out) => out.store
      case Err(_) => s
  }

  function Run(s: Store.Store, ops: seq<OrderOp>): Store.Store
    decreases |ops|
  {
    if |ops| == 0 then s else Run(Apply(s, ops[0]), ops[1..])
  }

  /** The one step that drops a recorded transaction: a successful pay of
      the very order that records it, with a different transaction. */
  predicate Releases(s: Store.Store, op: OrderOp, tx: string) {
    && op.PayOp?
    && op.pay.id != tx
    && Orders.UpdateOrderToPaid(s, op.caller, op.idText, op.pay, op.cfg, op.token, op.reply, op.ledgerFailed, op.now).Ok?
    && UsesTransaction(s.orders[Store.LookupById(s.orders, Store.OrderId, op.idText, Orders.OrderNotFound).value], tx)
  }

  predicate NeverReleased(s: Store.Store, ops: seq<OrderOp>, tx: string)
    decreases |ops|
  {
    |ops| == 0 || (!Releases(s, ops[0], tx) && NeverReleased(Apply(s, ops[0]), ops[1..], tx))
  }

  lemma CreateKeepsTransaction(s: Store.Store, c: Principal, req: Orders.OrderCreate, id: string, now: Time, tx: string, k: nat)
    requires k < |s.orders| && UsesTransaction(s.orders[k], tx)
    ensures TxUsed(Apply(s, CreateOp(c, req, id, now)).orders, tx)
  {
    if FreshOrderId(s, id) && Orders.AddOrderItems(s, c, req, id, now).Ok? {
      assert Apply(s, CreateOp(c, req, id, now)).orders[k] == s.orders[k];
    }
  }

  lemma PayKeepsTransaction(s: Store.Store, op: OrderOp, tx: string, k: nat)
    requires op.PayOp?
    requires k < |s.orders| && UsesTransaction(s.orders[k], tx)
    requires !Releases(s, op, tx)
    ensures TxUsed(Apply(s, op).orders, tx)
  {
    var r := Orders.UpdateOrderToPaid(s, op.caller, op.idText, op.pay, op.cfg, op.token, op.reply, op.ledgerFailed, op.now);
    if r.Ok? {
      var i := Store.LookupById(s.orders, Store.OrderId, op.idText, Orders.OrderNotFound).value;
      if k == i {
        // the guard refuses tx itself, and another id here is a release
        assert false;
      }
      assert r.value.store.orders[k] == s.orders[k];
    }
  }

  lemma DeliverKeepsTransaction(s: Store.Store, c: Principal, idText: string, now: Time, tx: string, k: nat)
    requires k < |s.orders| && UsesTransaction(s.orders[k], tx)
    ensures TxUsed(Apply(s, DeliverOp(c, idText, now)).orders, tx)
  {
    if Orders.UpdateOrderToDelivered(s, c, idText, now).Ok? {
      assert UsesTransaction(Apply(s, DeliverOp(c, idText, now)).orders[k], tx);
    }
  }

  lemma StepKeepsTransaction(s: Store.Store, op: OrderOp, tx: string)
    requires TxUsed(s.orders, tx)
    requires !Releases(s, op, tx)
    ensures TxUsed(Apply(s, op).orders, tx)
  {
    var k :| 0 <= k < |s.orders| && UsesTransaction(s.orders[k], tx);
    match op {
      case CreateOp(c, req, id, now) => CreateKeepsTransaction(s, c, req, id, now, tx, k);
      case PayOp(_, _, _, _, _, _, _, _) => PayKeepsTransaction(s, op, tx, k);
      case DeliverOp(c, idText, now) => DeliverKeepsTransaction(s, c, idText, now, tx, k);
    }
  }

  lemma {:induction false} RunKeepsTransaction(s: Store.Store, ops: seq<OrderOp>, tx: string)
    requires TxUsed(s.orders, tx)
    requires NeverReleased(s, ops, tx)
    ensures TxUsed(Run(s, ops).orders, tx)
    decreases |ops|
  {
    if |ops| > 0 {
      StepKeepsTransaction(s, ops[0], tx);
      RunKeepsTransaction(Apply(s, ops[0]), ops[1..], tx);
    }
  }

  /** Replay protection: after a transaction has paid an order, any later pay
      presenting it — after any sequence of creates, deliveries and other
      payments that does not re-pay that same order with another
      transaction — is refused, as a used transaction whenever the processor
      confirms it. */
  lemma PaidTransactionNotReaccepted(
    s: Store.Store, caller: Principal, idText: string, pay: Orders.OrderPaymentUpdate,
    cfg: PayPal.PayPalSettings, token: PayPal.TokenReply, reply: PayPal.OrderReply,
    ledgerFailed: bool, now: Time,
    ops: seq<OrderOp>,
    caller2: Principal, idText2: string, pay2: Orders.OrderPaymentUpdate,
    cfg2: PayPal.PayPalSettings, token2: PayPal.TokenReply, reply2: PayPal.OrderReply,
    ledgerFailed2: bool, now2: Time)
    requires Orders.UpdateOrderToPaid(s, caller, idText, pay, cfg, token, reply, ledgerFailed, now).Ok?
    requires NeverReleased(Orders.UpdateOrderToPaid(s, caller, idText, pay, cfg, token, reply, ledgerFailed, now).value.store, ops, pay.id)
    requires pay2.id == pay.id
    ensures var s1 := Orders.UpdateOrderToPaid(s, caller, idText, pay, cfg, token, reply, ledgerFailed, now).value.store;
            var r := Orders.UpdateOrderToPaid(Run(s1, ops), caller2, idText2, pay2, cfg2, token2, reply2, ledgerFailed2, now2);
            var v := PayPal.VerifyPayPalPayment(cfg2, token2, reply2);
            && r.Err?
            && (v.Ok? && v.value.verified ==> r.error == HttpError(BadRequest, "Transaction has been used before"))
  {
    var s1 := Orders.UpdateOrderToPaid(s, caller, idText, pay, cfg, token, reply, ledgerFailed, now).value.store;
    var i := Store.LookupById(s.orders, Store.OrderId, idText, Orders.OrderNotFound).value;
    assert UsesTransaction(s1.orders[i], pay.id);
    RunKeepsTransaction(s1, ops, pay.id);
    UsedTransactionRefused(Run(s1, ops), caller2, idText2, pay2, cfg2, token2, reply2, ledgerFailed2, now2);
  }

  /** Because an already-paid order is not refused, re-paying it with a new
      transaction overwrites the recorded one: in a valid collection the old
      transaction is then recorded nowhere and the guard reports it new. */
  lemma RepayReleasesTransaction(
    s: Store.Store, caller: Principal, idText: string, pay: Orders.OrderPaymentUpdate,
    cfg: PayPal.PayPalSettings, token: PayPal.TokenReply, reply: PayPal.OrderReply,
    ledgerFailed: bool, now: Time, prior: string)
    requires Valid(s.orders)
    requires Orders.UpdateOrderToPaid(s, caller, idText, pay, cfg, token, reply, ledgerFailed, now).Ok?
    requires pay.id != prior
    requires UsesTransaction(s.orders[Store.LookupById(s.orders, Store.OrderId, idText, Orders.OrderNotFound).value], prior)
    ensures var s1 := Orders.UpdateOrderToPaid(s, caller, idText, pay, cfg, token, reply, ledgerFailed, now).value.store;
            PayPal.CheckIfNewTransaction(s1.orders, prior, false)
  {
    var i := Store.LookupById(s.orders, Store.OrderId, idText, Orders.OrderNotFound).value;
    var s1 := Orders.UpdateOrderToPaid(s, caller, idText, pay, cfg, token, reply, ledgerFailed, now).value.store;
    forall j | 0 <= j < |s1.orders|
      ensures !UsesTransaction(s1.orders[j], prior)
    {
      if j != i {
        assert !SameTransaction(s.orders[i], s.orders[j]);
      }
    }
  }

  // ----- reads -----

  /** "My orders" is exactly the caller's orders, each as often as the store
      holds it, and nobody else's. */
  lemma MineIsExactlyTheCallersOrders(s: Store.Store, caller: Principal, o: Order)
    ensures multiset(Orders.GetMyOrders(s, caller))[o] == if o.user == caller.id then multiset(s.orders)[o] else 0
  {
    Seqs.FilterMultiset(s.orders, Orders.OwnedBy(caller.id), o);
  }

  // ----- checkout -----

  /** Two carts that differ at most in the prices the client wrote. */
  predicate SameButPrices(a: seq<Orders.CartItem>, b: seq<Orders.CartItem>) {
    |a| == |b| && forall i :: 0 <= i < |a| ==> a[i].(price := 0) == b[i].(price := 0)
  }

  lemma {:induction false} RepriceIgnoresClientPrice(products: seq<ProductModel.Product>, a: seq<Orders.CartItem>, b: seq<Orders.CartItem>)
    requires SameButPrices(a, b)
    ensures Orders.RepriceItems(products, a) == Orders.RepriceItems(products, b)
  {
    if |a| > 0 {
      assert a[0].(price := 0) == b[0].(price := 0);
      assert a[0].product == b[0].product;
      if Orders.Resolves(products, a[0]) {
        assert Orders.Snapshot(products, a[0]) == Orders.Snapshot(products, b[0]);
      }
      assert SameButPrices(a[1..], b[1..]) by {
        forall i | 0 <= i < |a| - 1 ensures a[1..][i].(price := 0) == b[1..][i].(price := 0) {
          assert a[i + 1].(price := 0) == b[i + 1].(price := 0);
        }
      }
      RepriceIgnoresClientPrice(products, a[1..], b[1..]);
    }
  }

  lemma FirstUnparsableIgnoresClientPrice(a: seq<Orders.CartItem>, b: seq<Orders.CartItem>)
    requires SameButPrices(a, b)
    ensures Seqs.FirstIndex(a, Orders.Unparsable) == Seqs.FirstIndex(b, Orders.Unparsable)
  {
    assert forall i :: 0 <= i < |a| ==> a[i].product == b[i].product by {
      forall i | 0 <= i < |a| ensures a[i].product == b[i].product {
        assert a[i].(price := 0) == b[i].(price := 0);
      }
    }
    var x, y := Seqs.FirstIndex(a, Orders.Unparsable), Seqs.FirstIndex(b, Orders.Unparsable);
    if x.Some? && y.Some? {
      if x.value < y.value {
        assert Orders.Unparsable(b[x.value]);
      } else if y.value < x.value {
        assert Orders.Unparsable(a[y.value]);
      }
    } else if x.Some? {
      assert Orders.Unparsable(b[x.value]);
    } else if y.Some? {
      assert Orders.Unparsable(a[y.value]);
    }
  }

  /** Price tampering has no effect: whatever prices the client submits, the
      checkout's outcome — success or error, stored order, response — is the
      same. */
  lemma ClientPriceIgnored(s: Store.Store, caller: Principal, a: Orders.OrderCreate, b: Orders.OrderCreate, newId: string, now: Time)
    requires ObjectIds.IsCanonical(newId)
    requires forall i :: 0 <= i < |s.orders| ==> s.orders[i].id != newId
    requires SameButPrices(a.orderItems, b.orderItems)
    requires a.shippingAddress == b.shippingAddress && a.paymentMethod == b.paymentMethod
    ensures Orders.AddOrderItems(s, caller, a, newId, now) == Orders.AddOrderItems(s, caller, b, newId, now)
  {
    FirstUnparsableIgnoresClientPrice(a.orderItems, b.orderItems);
    RepriceIgnoresClientPrice(s.products, a.orderItems, b.orderItems);
  }

  /** Checkout with a product text that is a valid id but not the exact
      canonical text of a stored product — an upper-case spelling, say —
      is refused with 404, even when the product exists. */
  lemma NonCanonicalProductTextNotFound(s: Store.Store, caller: Principal, req: Orders.OrderCreate, newId: string, now: Time, k: nat)
    requires ObjectIds.IsCanonical(newId)
    requires forall i :: 0 <= i < |s.orders| ==> s.orders[i].id != newId
    requires forall i :: 0 <= i < |s.products| ==> ObjectIds.IsCanonical(s.products[i].id)
    requires k < |req.orderItems| && ObjectIds.IsObjectIdText(req.orderItems[k].product)
    requires !ObjectIds.IsCanonical(req.orderItems[k].product)
    ensures Orders.AddOrderItems(s, caller, req, newId, now).Err?
  {
    assert !Orders.Resolves(s.products, req.orderItems[k]);
  }

  /** The worked checkout: two units of a product the catalog prices at
      60.00 (whatever the client claims) give 120.00 + 0 shipping + 18.00 tax
      = 138.00. */
  lemma CheckoutWorkedExample(s: Store.Store, caller: Principal, req: Orders.OrderCreate, newId: string, now: Time, clientPrice: int)
    requires ObjectIds.IsCanonical(newId)
    requires forall i :: 0 <= i < |s.orders| ==> s.orders[i].id != newId
    requires |s.products| == 1 && ObjectIds.IsCanonical(s.products[0].id) && s.products[0].price == 6000
    requires |req.orderItems| == 1 && req.orderItems[0].product == s.products[0].id
    requires req.orderItems[0].qty == 2 && req.orderItems[0].price == clientPrice
    ensures Orders.AddOrderItems(s, caller, req, newId, now).Ok?
    ensures var o := Orders.LastOrder(Orders.AddOrderItems(s, caller, req, newId, now).value.store);
            o.itemsPrice == 12000 && o.shippingPrice == 0 && o.taxPrice == 1800 && o.totalPrice == 13800
  {
    var c := req.orderItems[0];
    ObjectIds.ParseCanonical(c.product);
    assert !Orders.Unparsable(c);
    assert Orders.AllParsable(req.orderItems);
    assert Orders.CatalogMatch(s.products, c.product) == Some(0);
    assert Orders.Snapshot(s.products, c).price == 6000;
    var out := Orders.AddOrderItems(s, caller, req, newId, now);
    assert out.Ok?;
    var o := Orders.LastOrder(out.value.store);
    assert o.orderItems[0] == Orders.Snapshot(s.products, c);
    assert PricedLines(o.orderItems) == [CalcPrices.PricedLine(6000, 2)];
    CalcPrices.WorkedExamples();
  }
}

=== FILE: order_serializer.dfy ===
/** Serialization of an order document to the JSON object the API returns:
    a field-for-field projection with camel-case keys, ids as their string
    form and the payment confirmation as null when absent. Objects keep their
    members in insertion order, as the service's dictionaries do. A decoder
    inverts the projection, which is how it is shown to lose nothing. */
module OrderSerializer {
  import opened Wrappers
  import opened OrderModel
  import ObjectIds

  /** JSON values. Money is carried as a count of cents and timestamps as
      opaque instants. */
  datatype Json =
    | JNull
    | JBool(b: bool)
    | JInt(i: int)
    | JMoney(cents: int)
    | JStr(s: string)
    | JTime(t: Time)
    | JArr(items: seq<Json>)
    | JObj(members: seq<Member>)

  datatype Member = Member(key: string, value: Json)

  function Keys(ms: seq<Member>): (r: seq<string>)
    ensures |r| == |ms|
    ensures forall i :: 0 <= i < |ms| ==> r[i] == ms[i].key
  {
    seq(|ms|, i requires 0 <= i < |ms| => ms[i].key)
  }

  function OptStr(o: Option<string>): Json {
    match o
    case None => JNull
    case Some(s) => JStr(s)
  }

  function OptTime(o: Option<Time>): Json {
    match o
    case None => JNull
    case Some(t) => JTime(t)
  }

  /** A line item; the product id goes out as its string form. */
  function SerializeOrderItem(item: OrderItem): (j: Json)
    ensures j.JObj? && Keys(j.members) == ["name", "qty", "image", "price", "product"]
  {
    JObj([
      Member("name", JStr(item.name)),
      Member("qty", JInt(item.qty)),
      Member("image", JStr(item.image)),
      Member("price", JMoney(item.price)),
      Member("product", JStr(item.product))])
  }

  /** The stored `postal_code` goes out under the key "postalCode". */
  function SerializeShippingAddress(a: ShippingAddress): (j: Json)
    ensures j.JObj? && Keys(j.members) == ["address", "city", "postalCode", "country"]
    ensures j.members[2].value == JStr(a.postalCode)
  {
    JObj([
      Member("address", JStr(a.address)),
      Member("city", JStr(a.city)),
      Member("postalCode", JStr(a.postalCode)),
      Member("country", JStr(a.country))])
  }

  /** null exactly when no confirmation is stored. */
  function SerializePaymentResult(p: Option<PaymentResult>): (j: Json)
    ensures j == JNull <==> p.None?
    ensures p.Some? ==> j.JObj? && Keys(j.members) == ["id", "status", "update_time", "email_address"]
  {
    match p
    case None => JNull
    case Some(r) =>
      JObj([
        Member("id", OptStr(r.id)),
        Member("status", OptStr(r.status)),
        Member("update_time", OptStr(r.updateTime)),
        Member("email_address", OptStr(r.emailAddress))])
  }

  function SerializeItems(items: seq<OrderItem>): (r: seq<Json>)
    ensures |r| == |items|
    ensures forall i :: 0 <= i < |items| ==> r[i] == SerializeOrderItem(items[i])
  {
    seq(|items|, i requires 0 <= i < |items| => SerializeOrderItem(items[i]))
  }

  const OrderKeys: seq<string> := [
    "_id", "user", "orderItems", "shippingAddress", "paymentMethod", "paymentResult",
    "itemsPrice", "taxPrice", "shippingPrice", "totalPrice",
    "isPaid", "paidAt", "isDelivered", "deliveredAt", "createdAt", "updatedAt"]

  function HeadMembers(o: Order): seq<Member> {
    [ Member("_id", JStr(o.id)),
      Member("user", JStr(o.user)),
      Member("orderItems", JArr(SerializeItems(o.orderItems))),
      Member("shippingAddress", SerializeShippingAddress(o.shippingAddress)),
      Member("paymentMethod", JStr(o.paymentMethod)),
      Member("paymentResult", SerializePaymentResult(o.paymentResult))]
  }

  function StateMembers(o: Order): seq<Member> {
    [ Member("itemsPrice", JMoney(o.itemsPrice)),
      Member("taxPrice", JMoney(o.taxPrice)),
      Member("shippingPrice", JMoney(o.shippingPrice)),
      Member("totalPrice", JMoney(o.totalPrice)),
      Member("isPaid", JBool(o.isPaid)),
      Member("paidAt", OptTime(o.paidAt)),
      Member("isDelivered", JBool(o.isDelivered)),
      Member("deliveredAt", OptTime(o.deliveredAt)),
      Member("createdAt", JTime(o.createdAt)),
      Member("updatedAt", JTime(o.updatedAt))]
  }

  /** The order response. */
  function SerializeOrder(o: Order): (j: Json)
    ensures j.JObj? && |j.members| == 16
    ensures j.members[0] == Member("_id", JStr(o.id)) && j.members[1] == Member("user", JStr(o.user))
    ensures j.members[2] == Member("orderItems", JArr(SerializeItems(o.orderItems)))
    ensures j.members[9] == Member("totalPrice", JMoney(o.totalPrice))
    ensures j.members[10] == Member("isPaid", JBool(o.isPaid))
    ensures j.members[12] == Member("isDelivered", JBool(o.isDelivered))
  {
    JObj(HeadMembers(o) + StateMembers(o))
  }

  // ----- decoding, the inverse of the projection -----

  /** The value of member `i`, provided it carries the expected key. */
  function At(ms: seq<Member>, i: nat, key: string): Option<Json> {
    if i < |ms| && ms[i].key == key then Some(ms[i].value) else None
  }

  function AsStr(j: Json): Option<string> {
    if j.JStr? then Some(j.s) else None
  }

  function AsOptStr(j: Json): Option<Option<string>> {
    match j
    case JNull => Some(None)
    case JStr(s) => Some(Some(s))
    case _ => None
  }

  function AsOptTime(j: Json): Option<Option<Time>> {
    match j
    case JNull => Some(None)
    case JTime(t) => Some(Some(t))
    case _ => None
  }

  function AsMoney(j: Json): Option<int> {
    if j.JMoney? then Some(j.cents) else None
  }

  function AsInt(j: Json): Option<int> {
    if j.JInt? then Some(j.i) else None
  }

  function AsBool(j: Json): Option<bool> {
    if j.JBool? then Some(j.b) else None
  }

  function AsTime(j: Json): Option<Time> {
    if j.JTime? then Some(j.t) else None
  }

  function AsArr(j: Json): Option<seq<Json>> {
    if j.JArr? then Some(j.items) else None
  }

  function DecodeOrderItem(j: Json): Option<OrderItem> {
    if !j.JObj? || |j.members| != 5 then None
    else
      var ms := j.members;
      var name :- At(ms, 0, "name");
      var name :- AsStr(name);
      var qty :- At(ms, 1, "qty");
      var qty :- AsInt(qty);
      var image :- At(ms, 2, "image");
      var image :- AsStr(image);
      var price :- At(ms, 3, "price");
      var price :- AsMoney(price);
      var product :- At(ms, 4, "product");
      var product :- AsStr(product);
      Some(OrderItem(name, qty, image, price, product))
  }

  function DecodeItems(js: seq<Json>): Option<seq<OrderItem>> {
    if |js| == 0 then Some([])
    else
      var x :- DecodeOrderItem(js[0]);
      var rest :- DecodeItems(js[1..]);
      Some([x] + rest)
  }

  function DecodeShippingAddress(j: Json): Option<ShippingAddress> {
    if !j.JObj? || |j.members| != 4 then None
    else
      var ms := j.members;
      var address :- At(ms, 0, "address");
      var address :- AsStr(address);
      var city :- At(ms, 1, "city");
      var city :- AsStr(city);
      var postalCode :- At(ms, 2, "postalCode");
      var postalCode :- AsStr(postalCode);
      var country :- At(ms, 3, "country");
      var country :- AsStr(country);
      Some(ShippingAddress(address, city, postalCode, country))
  }

  function DecodePaymentResult(j: Json): Option<Option<PaymentResult>> {
    match j
    case JNull => Some(None)
    case JObj(ms) =>
      if |ms| != 4 then None
      else
        var id :- At(ms, 0, "id");
        var id :- AsOptStr(id);
        var status :- At(ms, 1, "status");
        var status :- AsOptStr(status);
        var updateTime :- At(ms, 2, "update_time");
        var updateTime :- AsOptStr(updateTime);
        var email :- At(ms, 3, "email_address");
        var email :- AsOptStr(email);
        Some(Some(PaymentResult(id, status, updateTime, email)))
    case _ => None
  }

  /** The identifying and content part of a decoded order. */
  datatype OrderHead = OrderHead(
    id: string, user: string, items: seq<OrderItem>, address: ShippingAddress,
    paymentMethod: string, paymentResult: Option<PaymentResult>)

  /** The money breakdown, flags and timestamps of a decoded order. */
  datatype OrderState = OrderState(
    itemsPrice: int, taxPrice: int, shippingPrice: int, totalPrice: int,
    isPaid: bool, paidAt: Option<Time>, isDelivered: bool, deliveredAt: Option<Time>,
    createdAt: Time, updatedAt: Time)

  function DecodeHead(ms: seq<Member>): Option<OrderHead>
    requires |ms| == 6
  {
    var id :- At(ms, 0, "_id");
    var id :- AsStr(id);
    var user :- At(ms, 1, "user");
    var user :- AsStr(user);
    var items :- At(ms, 2, "orderItems");
    var items :- AsArr(items);
    var items :- DecodeItems(items);
    var address :- At(ms, 3, "shippingAddress");
    var address :- DecodeShippingAddress(address);
    var paymentMethod :- At(ms, 4, "paymentMethod");
    var paymentMethod :- AsStr(paymentMethod);
    var paymentResult :- At(ms, 5, "paymentResult");
    var paymentResult :- DecodePaymentResult(paymentResult);
    Some(OrderHead(id, user, items, address, paymentMethod, paymentResult))
  }

  function DecodeState(ms: seq<Member>): Option<OrderState>
    requires |ms| == 10
  {
    var itemsPrice :- At(ms, 0, "itemsPrice");
    var itemsPrice :- AsMoney(itemsPrice);
    var taxPrice :- At(ms, 1, "taxPrice");
    var taxPrice :- AsMoney(taxPrice);
    var shippingPrice :- At(ms, 2, "shippingPrice");
    var shippingPrice :- AsMoney(shippingPrice);
    var totalPrice :- At(ms, 3, "totalPrice");
    var totalPrice :- AsMoney(totalPrice);
    var isPaid :- At(ms, 4, "isPaid");
    var isPaid :- AsBool(isPaid);
    var paidAt :- At(ms, 5, "paidAt");
    var paidAt :- AsOptTime(paidAt);
    var isDelivered :- At(ms, 6, "isDelivered");
    var isDelivered :- AsBool(isDelivered);
    var deliveredAt :- At(ms, 7, "deliveredAt");
    var deliveredAt :- AsOptTime(deliveredAt);
    var createdAt :- At(ms, 8, "createdAt");
    var createdAt :- AsTime(createdAt);
    var updatedAt :- At(ms, 9, "updatedAt");
    var updatedAt :- AsTime(updatedAt);
    Some(OrderState(itemsPrice, taxPrice, shippingPrice, totalPrice,
                    isPaid, paidAt, isDelivered, deliveredAt, createdAt, updatedAt))
  }

  /** Reads an order back from its JSON object. */
  function DecodeOrder(j: Json): Option<Order> {
    if !j.JObj? || |j.members| != 16 then None
    else
      var h :- DecodeHead(j.members[..6]);
      var st :- DecodeState(j.members[6..]);
      Some(Order(h.id, h.user, h.items, h.address, h.paymentMethod, h.paymentResult,
                 st.itemsPrice, st.taxPrice, st.shippingPrice, st.totalPrice,
                 st.isPaid, st.paidAt, st.isDelivered, st.deliveredAt, st.createdAt, st.updatedAt))
  }

  lemma {:induction false} ItemsRoundTrip(items: seq<OrderItem>)
    ensures DecodeItems(SerializeItems(items)) == Some(items)
  {
    if |items| > 0 {
      assert SerializeItems(items)[1..] == SerializeItems(items[1..]);
      ItemsRoundTrip(items[1..]);
      assert [items[0]] + items[1..] == items;
    }
  }

  lemma PaymentResultRoundTrip(p: Option<PaymentResult>)
    ensures DecodePaymentResult(SerializePaymentResult(p)) == Some(p)
  {
    match p {
      case None =>
      case Some(r) =>
        match r.id { case None => case Some(_) => }
        match r.status { case None => case Some(_) => }
        match r.updateTime { case None => case Some(_) => }
        match r.emailAddress { case None => case Some(_) => }
    }
  }

  lemma AddressRoundTrip(a: ShippingAddress)
    ensures DecodeShippingAddress(SerializeShippingAddress(a)) == Some(a)
  {
  }

  lemma HeadRoundTrip(o: Order)
    ensures DecodeHead(HeadMembers(o))
            == Some(OrderHead(o.id, o.user, o.orderItems, o.shippingAddress, o.paymentMethod, o.paymentResult))
  {
    var ms := HeadMembers(o);
    assert At(ms, 2, "orderItems") == Some(JArr(SerializeItems(o.orderItems)));
    ItemsRoundTrip(o.orderItems);
    assert At(ms, 3, "shippingAddress") == Some(SerializeShippingAddress(o.shippingAddress));
    AddressRoundTrip(o.shippingAddress);
    assert At(ms, 5, "paymentResult") == Some(SerializePaymentResult(o.paymentResult));
    PaymentResultRoundTrip(o.paymentResult);
  }

  lemma StateRoundTrip(o: Order)
    ensures DecodeState(StateMembers(o))
            == Some(OrderState(o.itemsPrice, o.taxPrice, o.shippingPrice, o.totalPrice,
                               o.isPaid, o.paidAt, o.isDelivered, o.deliveredAt, o.createdAt, o.updatedAt))
  {
    match o.paidAt { case None => case Some(_) => }
    match o.deliveredAt { case None => case Some(_) => }
  }

  /** The serializer loses nothing: decoding the response gives back the
      stored order, field for field. */
  lemma OrderRoundTrip(o: Order)
    ensures DecodeOrder(SerializeOrder(o)) == Some(o)
  {
    var ms := SerializeOrder(o).members;
    assert ms[..6] == HeadMembers(o);
    assert ms[6..] == StateMembers(o);
    HeadRoundTrip(o);
    StateRoundTrip(o);
  }

  /** The response carries exactly the sixteen documented keys, in order. */
  lemma SerializeOrderKeys(o: Order)
    ensures Keys(SerializeOrder(o).members) == OrderKeys
  {
  }

  /** Different orders give different responses. */
  lemma SerializeOrderInjective(a: Order, b: Order)
    requires SerializeOrder(a) == SerializeOrder(b)
    ensures a == b
  {
    OrderRoundTrip(a);
    OrderRoundTrip(b);
  }

  /** `_id`, `user` and each line's `product` are `str()` of stored ObjectIds:
      for canonical ids they read back as the same ids. */
  lemma IdsReadBack(o: Order, i: nat)
    requires ObjectIds.IsCanonical(o.id) && ObjectIds.IsCanonical(o.user)
    requires i < |o.orderItems| && ObjectIds.IsCanonical(o.orderItems[i].product)
    ensures ObjectIds.Parse(SerializeOrder(o).members[0].value.s) == Some(o.id)
    ensures ObjectIds.Parse(SerializeOrder(o).members[1].value.s) == Some(o.user)
    ensures ObjectIds.Parse(SerializeOrder(o).members[2].value.items[i].members[4].value.s)
            == Some(o.orderItems[i].product)
  {
    ObjectIds.ParseCanonical(o.id);
    ObjectIds.ParseCanonical(o.user);
    ObjectIds.ParseCanonical(o.orderItems[i].product);
  }
}

=== FILE: orders.dfy ===
/** The order endpoints: checkout (create), pay, deliver, and the three
    read-only listings. Each takes the store and returns either an HTTP error,
    leaving the store as it was, or the new store and the response body. */
module Orders {
  import opened Wrappers
  import opened OrderModel
  import opened OrderSerializer
  import ObjectIds
  import Seqs
  import CalcPrices
  import Money
  import PayPal
  import Store
  import ProductModel

  /** One cart line as the client submits it. `price` is the client's and is
      never used. */
  datatype CartItem = CartItem(name: string, qty: int, image: string, price: int, product: string)

  datatype OrderCreate = OrderCreate(orderItems: seq<CartItem>, shippingAddress: ShippingAddress, paymentMethod: string)

  /** The payment confirmation the client forwards after paying. */
  datatype OrderPaymentUpdate = OrderPaymentUpdate(id: string, status: string, updateTime: string, emailAddress: string)

  /** A successful order request: the store after it and the JSON body. */
  type Outcome = Store.Outcome<Json>

  const OrderNotFound := "Order not found"

  function InvalidIdMessage(text: string): string {
    "'" + text + "' is not a valid ObjectId, it must be a 12-byte input or a 24-character hex string"
  }

  // ----- checkout -----

  /** The client's product text is not an ObjectId; the conversion raises
      and the global handler answers 500. */
  predicate Unparsable(c: CartItem) {
    ObjectIds.Parse(c.product).None?
  }

  function IsProduct(text: string): ProductModel.Product -> bool {
    (p: ProductModel.Product) => p.id == text
  }

  /** The catalog entry the checkout finds for a client's product text. The
      fetched products are keyed by the string form of their ids and looked
      up with the client's text as sent, so only the exact canonical text
      finds a product. */
  function CatalogMatch(products: seq<ProductModel.Product>, text: string): Option<nat> {
    Seqs.FirstIndex(products, IsProduct(text))
  }

  predicate Resolves(products: seq<ProductModel.Product>, c: CartItem) {
    CatalogMatch(products, c.product).Some?
  }

  function CatalogPrice(products: seq<ProductModel.Product>, c: CartItem): int
    requires Resolves(products, c)
  {
    products[CatalogMatch(products, c.product).value].price
  }

  /** The stored line for a resolved cart line: the client's name, quantity,
      image and product, the catalog's price. */
  function Snapshot(products: seq<ProductModel.Product>, c: CartItem): OrderItem
    requires Resolves(products, c)
  {
    OrderItem(c.name, c.qty, c.image, CatalogPrice(products, c), c.product)
  }

  /** Line `i` is the first line of the cart the catalog does not resolve. */
  predicate FirstUnresolved(products: seq<ProductModel.Product>, items: seq<CartItem>, i: int) {
    && 0 <= i < |items| && !Resolves(products, items[i])
    && forall j :: 0 <= j < i ==> Resolves(products, items[j])
  }

  /** Re-pricing the cart line by line; the first unresolved line fails with
      404 naming the client's product text. */
  function RepriceItems(products: seq<ProductModel.Product>, items: seq<CartItem>): (r: Result<seq<OrderItem>>)
    ensures r.Ok? <==> forall i :: 0 <= i < |items| ==> Resolves(products, items[i])
    ensures r.Ok? ==> |r.value| == |items|
    ensures r.Ok? ==> forall i :: 0 <= i < |items| ==> r.value[i] == Snapshot(products, items[i])
    ensures r.Err? ==> exists i :: FirstUnresolved(products, items, i)
                        && r.error == HttpError(NotFound, "Product " + items[i].product + " not found")
  {
    if |items| == 0 then Ok([])
    else if !Resolves(products, items[0]) then
      assert FirstUnresolved(products, items, 0);
      Err(HttpError(NotFound, "Product " + items[0].product + " not found"))
    else
      match RepriceItems(products, items[1..])
      case Err(e) =>
        var k :| FirstUnresolved(products, items[1..], k)
                 && e == HttpError(NotFound, "Product " + items[1..][k].product + " not found");
        assert FirstUnresolved(products, items, k + 1);
        Err(e)
      case Ok(rest) =>
        Ok([Snapshot(products, items[0])] + rest)
  }

  function LastOrder(st: Store.Store): Order
    requires |st.orders| > 0
  {
    st.orders[|st.orders| - 1]
  }

  function CopyAddress(a: ShippingAddress): ShippingAddress {
    ShippingAddress(a.address, a.city, a.postalCode, a.country)
  }

  /** The order a checkout inserts, built from the re-priced lines. */
  function PlacedOrder(caller: Principal, req: OrderCreate, items: seq<OrderItem>, newId: string, now: Time): (o: Order)
    ensures o.id == newId && o.user == caller.id && o.orderItems == items
    ensures o.shippingAddress == req.shippingAddress && o.paymentMethod == req.paymentMethod
    ensures CalcPrices.CalcPrices(PricedLines(o.orderItems))
            == CalcPrices.Prices(o.itemsPrice, o.shippingPrice, o.taxPrice, o.totalPrice)
    ensures !o.isPaid && o.paidAt.None? && !o.isDelivered && o.deliveredAt.None?
    ensures o.paymentResult.None? && o.createdAt == now && o.updatedAt == now
  {
    var prices := CalcPrices.CalcPrices(PricedLines(items));
    Save(NewOrder(newId, caller.id, items, CopyAddress(req.shippingAddress), req.paymentMethod, Some(prices), now), now)
  }

  /** `o` is the order a checkout of `req` places: owned by the caller, its
      lines snapshot the catalog, its prices are computed from those lines,
      and it starts unpaid and undelivered. */
  predicate PlacedFrom(o: Order, products: seq<ProductModel.Product>, caller: Principal, req: OrderCreate, newId: string, now: Time)
    requires forall i :: 0 <= i < |req.orderItems| ==> Resolves(products, req.orderItems[i])
  {
    && o.id == newId && o.user == caller.id
    && |o.orderItems| == |req.orderItems|
    && (forall i :: 0 <= i < |req.orderItems| ==> o.orderItems[i] == Snapshot(products, req.orderItems[i]))
    && o.shippingAddress == req.shippingAddress && o.paymentMethod == req.paymentMethod
    && CalcPrices.CalcPrices(PricedLines(o.orderItems))
       == CalcPrices.Prices(o.itemsPrice, o.shippingPrice, o.taxPrice, o.totalPrice)
    && !o.isPaid && o.paidAt.None? && !o.isDelivered && o.deliveredAt.None?
    && o.paymentResult.None? && o.createdAt == now && o.updatedAt == now
  }

  /** The checkout's outcome: the store gains exactly one order, appended,
      placed from `req`, and the response is that order serialized. */
  predicate Placed(s: Store.Store, out: Outcome, caller: Principal, req: OrderCreate, newId: string, now: Time)
    requires forall i :: 0 <= i < |req.orderItems| ==> Resolves(s.products, req.orderItems[i])
  {
    && out.store.products == s.products && out.store.users == s.users
    && |out.store.orders| == |s.orders| + 1 && out.store.orders[..|s.orders|] == s.orders
    && PlacedFrom(LastOrder(out.store), s.products, caller, req, newId, now)
    && out.body == SerializeOrder(LastOrder(out.store))
  }

  /** The checkout once the cart is non-empty and every product text
      parses: re-price the lines from the catalog and insert the order. */
  function PriceAndPlace(s: Store.Store, caller: Principal, req: OrderCreate, newId: string, now: Time): (r: Result<Outcome>)
    ensures r.Ok? <==> forall i :: 0 <= i < |req.orderItems| ==> Resolves(s.products, req.orderItems[i])
    ensures r.Ok? ==> Placed(s, r.value, caller, req, newId, now)
    ensures r.Err? ==> exists i :: FirstUnresolved(s.products, req.orderItems, i)
                        && r.error == HttpError(NotFound, "Product " + req.orderItems[i].product + " not found")
  {
    var items :- RepriceItems(s.products, req.orderItems);
    var order := PlacedOrder(caller, req, items, newId, now);
    assert PlacedFrom(order, s.products, caller, req, newId, now);
    var st := s.(orders := s.orders + [order]);
    assert st.orders[..|s.orders|] == s.orders;
    Ok(Store.Outcome(st, SerializeOrder(order)))
  }

  /** Line `k` is the first line of the cart whose product text does not
      convert to an ObjectId. */
  predicate FirstUnparsable(items: seq<CartItem>, k: int) {
    && 0 <= k < |items| && Unparsable(items[k])
    && forall j :: 0 <= j < k ==> !Unparsable(items[j])
  }

  /** The 500 for the first cart line whose product text does not convert;
      there is only one first such line. */
  function UnparsableError(items: seq<CartItem>, k: int): (e: HttpError)
    requires FirstUnparsable(items, k)
    ensures forall k' :: FirstUnparsable(items, k') ==> e == HttpError(InternalError, InvalidIdMessage(items[k'].product))
  {
    assert forall k' :: FirstUnparsable(items, k') ==> k' == k;
    HttpError(InternalError, InvalidIdMessage(items[k].product))
  }

  /** Every product text of the cart converts to an ObjectId. */
  predicate AllParsable(items: seq<CartItem>) {
    forall i :: 0 <= i < |items| ==> !Unparsable(items[i])
  }

  /** Checkout. `newId` is the id the store assigns to the inserted order.
      Every product text is converted before any catalog lookup, so an
      unconvertible text (500) wins over an unknown product (404). */
  function AddOrderItems(s: Store.Store, caller: Principal, req: OrderCreate, newId: string, now: Time): (r: Result<Outcome>)
    requires ObjectIds.IsCanonical(newId)
    requires forall i :: 0 <= i < |s.orders| ==> s.orders[i].id != newId
    ensures |req.orderItems| == 0 ==> r == Err(HttpError(BadRequest, "No order items"))
    ensures forall k :: FirstUnparsable(req.orderItems, k)
                        ==> r == Err(HttpError(InternalError, InvalidIdMessage(req.orderItems[k].product)))
    ensures |req.orderItems| > 0 && AllParsable(req.orderItems) && r.Err?
            ==> exists i :: FirstUnresolved(s.products, req.orderItems, i)
                            && r.error == HttpError(NotFound, "Product " + req.orderItems[i].product + " not found")
    ensures r.Ok? <==> |req.orderItems| > 0
                       && AllParsable(req.orderItems)
                       && (forall i :: 0 <= i < |req.orderItems| ==> Resolves(s.products, req.orderItems[i]))
    ensures r.Ok? ==> Placed(s, r.value, caller, req, newId, now)
  {
    if |req.orderItems| == 0 then Err(HttpError(BadRequest, "No order items"))
    else ConvertAndPlace(s, caller, req, newId, now)
  }

  /** The checkout of a non-empty cart: every product text is converted
      first, then the lines are priced and the order placed. */
  function ConvertAndPlace(s: Store.Store, caller: Principal, req: OrderCreate, newId: string, now: Time): (r: Result<Outcome>)
    ensures forall k :: FirstUnparsable(req.orderItems, k)
                        ==> r == Err(HttpError(InternalError, InvalidIdMessage(req.orderItems[k].product)))
    ensures r.Ok? ==> AllParsable(req.orderItems)
    ensures AllParsable(req.orderItems) ==> r == PriceAndPlace(s, caller, req, newId, now)
  {
    match Seqs.FirstIndex(req.orderItems, Unparsable)
    case Some(k) =>
      assert FirstUnparsable(req.orderItems, k);
      Err(UnparsableError(req.orderItems, k))
    case None =>
      assert AllParsable(req.orderItems);
      PriceAndPlace(s, caller, req, newId, now)
  }

  // ----- reads -----

  function SerializeAll(os: seq<Order>): (r: seq<Json>)
    ensures |r| == |os|
    ensures forall i :: 0 <= i < |os| ==> r[i] == SerializeOrder(os[i])
  {
    seq(|os|, i requires 0 <= i < |os| => SerializeOrder(os[i]))
  }

  function OwnedBy(user: string): Order -> bool {
    (o: Order) => o.user == user
  }

  /** The caller's orders, in store order. */
  function GetMyOrders(s: Store.Store, caller: Principal): (r: seq<Order>)
    ensures forall i :: 0 <= i < |r| ==> r[i].user == caller.id && r[i] in s.orders
    ensures forall i :: 0 <= i < |s.orders| && s.orders[i].user == caller.id ==> s.orders[i] in r
  {
    Seqs.FilterMembers(s.orders, OwnedBy(caller.id));
    Seqs.Filter(s.orders, OwnedBy(caller.id))
  }

  /** The body of the caller's order listing: a JSON array whose entries
      decode back to the caller's stored orders, and which holds every one of
      them. */
  function GetMyOrdersResponse(s: Store.Store, caller: Principal): (r: Json)
    ensures r.JArr?
    ensures forall j :: 0 <= j < |r.items| ==>
              exists i :: 0 <= i < |s.orders| && s.orders[i].user == caller.id && DecodeOrder(r.items[j]) == Some(s.orders[i])
    ensures forall i :: 0 <= i < |s.orders| && s.orders[i].user == caller.id ==> SerializeOrder(s.orders[i]) in r.items
  {
    var mine := GetMyOrders(s, caller);
    var r := JArr(SerializeAll(mine));
    ListingDecodes(mine);
    ListingHoldsEach(mine);
    assert forall j :: 0 <= j < |r.items| ==> DecodeOrder(r.items[j]) == Some(mine[j]) && mine[j] in s.orders;
    r
  }

  /** Each entry of a serialized listing decodes to the order at its place. */
  lemma ListingDecodes(os: seq<Order>)
    ensures forall j :: 0 <= j < |os| ==> DecodeOrder(SerializeAll(os)[j]) == Some(os[j])
  {
    forall j | 0 <= j < |os| ensures DecodeOrder(SerializeAll(os)[j]) == Some(os[j]) {
      OrderRoundTrip(os[j]);
    }
  }

  /** A serialized listing holds the serialization of each listed order. */
  lemma ListingHoldsEach(os: seq<Order>)
    ensures forall o :: o in os ==> SerializeOrder(o) in SerializeAll(os)
  {
    forall o | o in os ensures SerializeOrder(o) in SerializeAll(os) {
      var k :| 0 <= k < |os| && os[k] == o;
      assert SerializeAll(os)[k] == SerializeOrder(o);
    }
  }

  /** Any authenticated caller may read any order by id. */
  function GetOrderById(s: Store.Store, caller: Principal, idText: string): (r: Result<Json>)
    ensures r.Ok? <==> Store.LookupById(s.orders, Store.OrderId, idText, OrderNotFound).Ok?
    ensures r.Ok? ==> r.value == SerializeOrder(s.orders[Store.LookupById(s.orders, Store.OrderId, idText, OrderNotFound).value])
    ensures r.Err? ==> r.error == HttpError(NotFound, OrderNotFound)
  {
    var i :- Store.LookupById(s.orders, Store.OrderId, idText, OrderNotFound);
    Ok(SerializeOrder(s.orders[i]))
  }

  /** All orders, administrators only. */
  function GetOrders(s: Store.Store, caller: Principal): (r: Result<Json>)
    ensures r.Ok? <==> caller.isAdmin
    ensures r.Ok? ==> r.value == JArr(SerializeAll(s.orders))
    ensures r.Ok? ==> r.value.JArr? && |r.value.items| == |s.orders|
                      && forall j :: 0 <= j < |r.value.items| ==> DecodeOrder(r.value.items[j]) == Some(s.orders[j])
    ensures r.Ok? ==> forall i :: 0 <= i < |s.orders| ==> SerializeOrder(s.orders[i]) in r.value.items
    ensures r.Err? ==> r.error.status == Forbidden
  {
    if !caller.isAdmin then Err(HttpError(Forbidden, AdminRequired))
    else
      ListingDecodes(s.orders);
      ListingHoldsEach(s.orders);
      Ok(JArr(SerializeAll(s.orders)))
  }

  // ----- pay -----

  /** The order after a successful payment, before the store writes it. */
  function MarkPaid(o: Order, pay: OrderPaymentUpdate, now: Time): Order {
    Save(o.(isPaid := true, paidAt := Some(now),
            paymentResult := Some(PaymentResult(Some(pay.id), Some(pay.status), Some(pay.updateTime), Some(pay.emailAddress)))),
         now)
  }

  /** Pay. The checks run in a fixed order: processor verification (its own
      failures are server errors), completed status, unused transaction,
      order lookup, amount. The amount check compares the text `str()` prints
      for the stored total with the processor's amount text. Any
      authenticated caller may pay any order, and an order already paid or
      delivered is not refused. */
  function UpdateOrderToPaid(
    s: Store.Store, caller: Principal, idText: string, pay: OrderPaymentUpdate,
    cfg: PayPal.PayPalSettings, token: PayPal.TokenReply, reply: PayPal.OrderReply,
    ledgerFailed: bool, now: Time): (r: Result<Outcome>)
    ensures r.Ok? ==> && PayPal.VerifyPayPalPayment(cfg, token, reply).Ok?
                      && PayPal.VerifyPayPalPayment(cfg, token, reply).value.verified
                      && PayPal.CheckIfNewTransaction(s.orders, pay.id, ledgerFailed)
                      && Store.LookupById(s.orders, Store.OrderId, idText, OrderNotFound).Ok?
    ensures r.Ok? ==> var i := Store.LookupById(s.orders, Store.OrderId, idText, OrderNotFound).value;
                      && Money.FloatStr(s.orders[i].totalPrice) == PayPal.VerifyPayPalPayment(cfg, token, reply).value.value
                      && r.value.store == s.(orders := s.orders[i := MarkPaid(s.orders[i], pay, now)])
                      && r.value.body == SerializeOrder(MarkPaid(s.orders[i], pay, now))
  {
    var info :- PayPal.VerifyPayPalPayment(cfg, token, reply);
    if !info.verified then Err(HttpError(BadRequest, "Payment not verified"))
    else if !PayPal.CheckIfNewTransaction(s.orders, pay.id, ledgerFailed) then
      Err(HttpError(BadRequest, "Transaction has been used before"))
    else
      var i :- Store.LookupById(s.orders, Store.OrderId, idText, OrderNotFound);
      if Money.FloatStr(s.orders[i].totalPrice) != info.value then
        Err(HttpError(BadRequest, "Incorrect amount paid"))
      else
        var paid := MarkPaid(s.orders[i], pay, now);
        Ok(Store.Outcome(s.(orders := s.orders[i := paid]), SerializeOrder(paid)))
  }

  // ----- deliver -----

  function MarkDelivered(o: Order, now: Time): Order {
    Save(o.(isDelivered := true, deliveredAt := Some(now)), now)
  }

  /** Deliver, administrators only; the admin check precedes the lookup. */
  function UpdateOrderToDelivered(s: Store.Store, caller: Principal, idText: string, now: Time): (r: Result<Outcome>)
    ensures !caller.isAdmin ==> r == Err(HttpError(Forbidden, AdminRequired))
    ensures caller.isAdmin ==> (r.Ok? <==> Store.LookupById(s.orders, Store.OrderId, idText, OrderNotFound).Ok?)
    ensures r.Err? && caller.isAdmin ==> r.error == HttpError(NotFound, OrderNotFound)
    ensures r.Ok? ==> var i := Store.LookupById(s.orders, Store.OrderId, idText, OrderNotFound).value;
                      && r.value.store == s.(orders := s.orders[i := MarkDelivered(s.orders[i], now)])
                      && r.value.body == SerializeOrder(MarkDelivered(s.orders[i], now))
  {
    if !caller.isAdmin then Err(HttpError(Forbidden, AdminRequired))
    else
      var i :- Store.LookupById(s.orders, Store.OrderId, idText, OrderNotFound);
      var delivered := MarkDelivered(s.orders[i], now);
      Ok(Store.Outcome(s.(orders := s.orders[i := delivered]), SerializeOrder(delivered)))
  }
}

=== FILE: paypal.dfy ===
/** The payment-processor side of checkout: the credential check before the
    token exchange, the decision taken on the processor's answer about a
    transaction, and the ledger guard that refuses a transaction id already
    recorded on an order. The network is abstracted: the processor's two
    answers (token exchange, order fetch) are parameters. */
module PayPal {
  import opened Wrappers
  import opened OrderModel
  import Seqs

  /** The configured client credentials. */
  datatype PayPalSettings = PayPalSettings(clientId: string, appSecret: string)

  const PlaceholderClientId := "your_paypal_client_id"
  const PlaceholderSecret := "your_paypal_secret"
  const CompletedStatus := "COMPLETED"

  /** The processor's answer to the client-credentials exchange. */
  datatype TokenReply = TokenReply(statusCode: int, accessToken: string)

  /** The processor's answer to fetching a checkout order: HTTP status, the
      order's `status` and the `amount.value` of each purchase unit. */
  datatype OrderReply = OrderReply(statusCode: int, status: string, unitValues: seq<string>)

  /** What the verifier reports to the pay endpoint. */
  datatype PaymentInfo = PaymentInfo(verified: bool, value: string)

  predicate IsPlaceholder(cfg: PayPalSettings) {
    cfg.clientId == PlaceholderClientId || cfg.appSecret == PlaceholderSecret
  }

  /** Obtaining an access token. Unconfigured credentials fail before any
      request; a non-200 answer fails; both surface as server errors. */
  function GetAccessToken(cfg: PayPalSettings, reply: TokenReply): (r: Result<string>)
    ensures IsPlaceholder(cfg) ==> r == Err(HttpError(InternalError, "PayPal credentials not configured"))
    ensures r.Ok? <==> !IsPlaceholder(cfg) && reply.statusCode == 200
    ensures r.Ok? ==> r.value == reply.accessToken
    ensures r.Err? ==> r.error.status == InternalError
  {
    if IsPlaceholder(cfg) then Err(HttpError(InternalError, "PayPal credentials not configured"))
    else if reply.statusCode != 200 then Err(HttpError(InternalError, "Failed to get access token"))
    else Ok(reply.accessToken)
  }

  /** Verifying a transaction: token first, then the order fetch. The payment
      is verified exactly when the processor's status is "COMPLETED", and the
      reported value is the first purchase unit's amount, as text. An answer
      without purchase units fails on the index. */
  function VerifyPayPalPayment(cfg: PayPalSettings, token: TokenReply, order: OrderReply): (r: Result<PaymentInfo>)
    ensures r.Ok? <==> GetAccessToken(cfg, token).Ok? && order.statusCode == 200 && |order.unitValues| > 0
    ensures r.Ok? ==> (r.value.verified <==> order.status == CompletedStatus)
    ensures r.Ok? ==> r.value.value == order.unitValues[0]
    ensures r.Err? ==> r.error.status == InternalError
  {
    var _ :- GetAccessToken(cfg, token);
    if order.statusCode != 200 then Err(HttpError(InternalError, "Failed to verify payment"))
    else if |order.unitValues| == 0 then Err(HttpError(InternalError, "list index out of range"))
    else Ok(PaymentInfo(order.status == CompletedStatus, order.unitValues[0]))
  }

  /** Placeholder credentials are refused before the network is touched: the
      outcome does not depend on anything the processor would answer. */
  lemma PlaceholderShortCircuits(cfg: PayPalSettings, t1: TokenReply, t2: TokenReply, o1: OrderReply, o2: OrderReply)
    requires IsPlaceholder(cfg)
    ensures VerifyPayPalPayment(cfg, t1, o1) == VerifyPayPalPayment(cfg, t2, o2)
    ensures VerifyPayPalPayment(cfg, t1, o1).Err?
  {
  }

  // ----- the ledger guard -----

  /** Saved documents are written under their fields' aliases, so an
      order's payment result is stored under `paymentResult`. */
  const StoredPaymentField := "paymentResult"

  /** The field name the guard's query spells out. */
  const QueriedPaymentField := "payment_result"

  /** The transaction id a stored order exposes to a dotted-path query, keyed
      by that path: only an order with a payment result that has an id
      exposes one, under the stored field's name. */
  function StoredIdPaths(o: Order): (m: map<string, string>)
    ensures StoredPaymentField + ".id" in m <==> o.paymentResult.Some? && o.paymentResult.value.id.Some?
    ensures forall path :: path in m ==> path == StoredPaymentField + ".id"
    ensures StoredPaymentField + ".id" in m ==> m[StoredPaymentField + ".id"] == o.paymentResult.value.id.value
  {
    if o.paymentResult.Some? && o.paymentResult.value.id.Some? then
      map[StoredPaymentField + ".id" := o.paymentResult.value.id.value]
    else map[]
  }

  /** The query `{field + ".id": tx}` matches the stored order `o`. */
  predicate QueryMatches(o: Order, field: string, tx: string) {
    var m := StoredIdPaths(o);
    field + ".id" in m && m[field + ".id"] == tx
  }

  /** The guard over a query on `field`: new when the query finds no order.
      `queryFailed` stands for an exception raised by the store query, which
      is caught and reported as "not new". */
  function NewUnderQuery(orders: seq<Order>, tx: string, queryFailed: bool, field: string): bool {
    if queryFailed then false
    else Seqs.FirstIndex(orders, (o: Order) => QueryMatches(o, field, tx)).None?
  }

  /** The guard as written: its query names the field's Python name, which
      no stored document carries, so only a failing query refuses. */
  function CheckIfNewTransactionAsWritten(orders: seq<Order>, tx: string, queryFailed: bool): (r: bool)
    ensures r <==> !queryFailed
  {
    assert QueriedPaymentField + ".id" != StoredPaymentField + ".id" by {
      assert (QueriedPaymentField + ".id")[7] == '_';
    }
    NewUnderQuery(orders, tx, queryFailed, QueriedPaymentField)
  }

  /** The guard as intended: the query names the stored field, so a
      transaction is new exactly when no stored order records it. */
  function CheckIfNewTransaction(orders: seq<Order>, tx: string, queryFailed: bool): (r: bool)
    ensures r <==> !queryFailed && forall i :: 0 <= i < |orders| ==> !UsesTransaction(orders[i], tx)
  {
    assert forall o: Order :: QueryMatches(o, StoredPaymentField, tx) <==> UsesTransaction(o, tx);
    NewUnderQuery(orders, tx, queryFailed, StoredPaymentField)
  }

  /** The guard as written lets a replay through: a transaction already
      recorded on a stored order is reported new, where the intended guard
      refuses it. */
  lemma AsWrittenGuardAcceptsRecordedTransaction(orders: seq<Order>, tx: string, i: nat)
    requires i < |orders| && UsesTransaction(orders[i], tx)
    ensures CheckIfNewTransactionAsWritten(orders, tx, false)
    ensures !CheckIfNewTransaction(orders, tx, false)
  {
  }

  /** The guard fails closed: whatever the store holds, a failed query never
      lets a transaction through. */
  lemma GuardFailsClosed(orders: seq<Order>, tx: string)
    ensures !CheckIfNewTransaction(orders, tx, true)
  {
  }

  /** An order that records the transaction makes it used for good, wherever
      it sits in the collection. */
  lemma RecordedTransactionIsNotNew(orders: seq<Order>, tx: string, i: nat, queryFailed: bool)
    requires i < |orders| && UsesTransaction(orders[i], tx)
    ensures !CheckIfNewTransaction(orders, tx, queryFailed)
  {
  }
}

=== FILE: product_model.dfy ===
/** The catalog documents: a product with its embedded reviews, the declared
    field bounds (checked when a document is constructed, not when a field is
    later assigned) and the timestamp refresh on save. */
module ProductModel {
  import opened Wrappers

  datatype Review = Review(name: string, rating: int, comment: string, user: string, createdAt: Time, updatedAt: Time)

  /** `price` is in cents; `rating` is the mean review rating. */
  datatype Product = Product(
    id: string,
    user: string,
    name: string,
    image: string,
    brand: string,
    category: string,
    description: string,
    reviews: seq<Review>,
    rating: real,
    numReviews: int,
    price: int,
    countInStock: int,
    createdAt: Time,
    updatedAt: Time)

  const MinReviewRating := 1
  const MaxReviewRating := 5

  predicate ValidReview(r: Review) {
    MinReviewRating <= r.rating <= MaxReviewRating
  }

  /** The bounds the product document declares. */
  predicate WithinDeclaredBounds(p: Product) {
    0.0 <= p.rating <= 5.0 && p.price >= 0
  }

  /** Constructing a review validates its rating. */
  function NewReview(name: string, rating: int, comment: string, user: string, now: Time): (r: Result<Review>)
    ensures r.Ok? <==> MinReviewRating <= rating <= MaxReviewRating
    ensures r.Ok? ==> ValidReview(r.value) && r.value.user == user && r.value.rating == rating
    ensures r.Ok? ==> r.value.name == name && r.value.comment == comment
    ensures r.Err? ==> r.error.status == InternalError
  {
    if MinReviewRating <= rating <= MaxReviewRating then Ok(Review(name, rating, comment, user, now, now))
    else Err(HttpError(InternalError, "rating must be between 1 and 5"))
  }

  /** Constructing a product: the declared bounds are validated (only the
      price can violate them here), reviews start empty, rating and review
      count at zero. */
  function NewProduct(
    id: string, user: string, name: string, image: string, brand: string, category: string,
    description: string, price: int, countInStock: int, now: Time): (r: Result<Product>)
    ensures r.Ok? <==> price >= 0
    ensures r.Ok? ==> WithinDeclaredBounds(r.value)
    ensures r.Ok? ==> r.value.id == id && r.value.user == user && r.value.price == price
    ensures r.Ok? ==> r.value.name == name && r.value.image == image && r.value.brand == brand
    ensures r.Ok? ==> r.value.category == category && r.value.description == description
    ensures r.Ok? ==> r.value.countInStock == countInStock
    ensures r.Ok? ==> r.value.reviews == [] && r.value.rating == 0.0 && r.value.numReviews == 0
    ensures r.Ok? ==> r.value.createdAt == now && r.value.updatedAt == now
    ensures r.Err? ==> r.error.status == InternalError
  {
    if price < 0 then Err(HttpError(InternalError, "price must be greater than or equal to 0"))
    else Ok(Product(id, user, name, image, brand, category, description, [], 0.0, 0, price, countInStock, now, now))
  }

  /** `save()`: refreshes `updatedAt` and nothing else. */
  function Save(p: Product, now: Time): (r: Product)
    ensures r.updatedAt == now
    ensures r.(updatedAt := p.updatedAt) == p
  {
    p.(updatedAt := now)
  }

  function RatingSum(rs: seq<Review>): int {
    if |rs| == 0 then 0 else RatingSum(rs[..|rs| - 1]) + rs[|rs| - 1].rating
  }

  /** The average of the review ratings. */
  function MeanRating(rs: seq<Review>): real
    requires |rs| > 0
  {
    RatingSum(rs) as real / |rs| as real
  }

  lemma {:induction false} RatingSumBounds(rs: seq<Review>)
    requires forall i :: 0 <= i < |rs| ==> ValidReview(rs[i])
    ensures MinReviewRating * |rs| <= RatingSum(rs) <= MaxReviewRating * |rs|
  {
    if |rs| > 0 {
      RatingSumBounds(rs[..|rs| - 1]);
    }
  }

  /** A mean of valid review ratings is itself a valid rating, so the
      product's rating stays within its declared bounds. */
  lemma MeanRatingBounds(rs: seq<Review>)
    requires |rs| > 0
    requires forall i :: 0 <= i < |rs| ==> ValidReview(rs[i])
    ensures 1.0 <= MeanRating(rs) <= 5.0
  {
    RatingSumBounds(rs);
    var n := |rs| as real;
    var s := RatingSum(rs) as real;
    assert n <= s <= 5.0 * n;
    assert s / n >= 1.0 by {
      assert s / n * n == s;
    }
    assert s / n <= 5.0 by {
      assert s / n * n == s;
    }
  }

  lemma RatingSumAppend(rs: seq<Review>, r: Review)
    ensures RatingSum(rs + [r]) == RatingSum(rs) + r.rating
  {
    assert (rs + [r])[..|rs|] == rs;
  }
}

=== FILE: products.dfy ===
/** The catalog endpoints: paginated search, top rated, get by id, and the
    administrator's create, patch-update and delete, plus a customer's review.
    Each takes the store and returns either an HTTP error, leaving the store
    as it was, or the new store and the response. */
module Products {
  import opened Wrappers
  import opened ProductModel
  import ObjectIds
  import Seqs
  import Store

  /** `PAGINATION_LIMIT` of the service settings. */
  const PageSize := 12
  /** The number of products the top-rated listing returns. */
  const TopCount := 3

  const ProductNotFound := "Product not found"
  /** The framework's request validation answers these two 422s before the
      handler runs; its body is a list of error objects, so the two texts
      below only name which check failed. */
  const PageNumberTooSmall := "pageNumber must be greater than or equal to 1"
  const ReviewRatingOutOfRange := "rating must be between 1 and 5"

  function Min(a: int, b: int): int {
    if a <= b then a else b
  }

  // ----- the response projection -----

  /** The product as every catalog endpoint returns it: all stored fields
      except the embedded reviews. */
  datatype ProductView = ProductView(
    id: string, user: string, name: string, image: string, brand: string, category: string,
    description: string, rating: real, numReviews: int, price: int, countInStock: int,
    createdAt: Time, updatedAt: Time)

  function View(p: Product): ProductView {
    ProductView(p.id, p.user, p.name, p.image, p.brand, p.category, p.description,
                p.rating, p.numReviews, p.price, p.countInStock, p.createdAt, p.updatedAt)
  }

  function Views(ps: seq<Product>): (r: seq<ProductView>)
    ensures |r| == |ps|
    ensures forall i :: 0 <= i < |ps| ==> r[i] == View(ps[i])
  {
    seq(|ps|, i requires 0 <= i < |ps| => View(ps[i]))
  }

  /** The response hides exactly the reviews: two products with the same
      view differ at most in their review lists. */
  lemma ViewOmitsOnlyReviews(p: Product, q: Product)
    ensures View(p) == View(q) <==> p.(reviews := q.reviews) == q
  {
  }

  // ----- paginated search -----

  /** Documents skipped before the requested page. */
  function Skip(pageNumber: int): int {
    PageSize * (pageNumber - 1)
  }

  /** ceil(count / PageSize), and 1 for an empty result. */
  function PageCount(count: nat): (r: nat)
    ensures r >= 1
    ensures count <= PageSize * r
    ensures count > 0 ==> PageSize * (r - 1) < count
    ensures count == 0 ==> r == 1
  {
    if count > 0 then (count + PageSize - 1) / PageSize else 1
  }

  /** The products the query selects: with a non-empty keyword, those whose
      name the case-insensitive pattern match accepts (the match itself is a
      parameter); otherwise all of them, in natural order. */
  function Matching(catalog: seq<Product>, keyword: Option<string>, nameMatches: (string, string) -> bool): seq<Product> {
    if Truthy(keyword) then Seqs.Filter(catalog, (p: Product) => nameMatches(keyword.value, p.name))
    else catalog
  }

  /** The requested page of a result: skip, then limit. */
  function Window<T>(m: seq<T>, pageNumber: int): (r: seq<T>)
    requires pageNumber >= 1
    ensures |r| <= PageSize
    ensures Skip(pageNumber) >= |m| ==> r == []
    ensures Skip(pageNumber) < |m| ==> |r| == Min(PageSize, |m| - Skip(pageNumber))
    ensures forall i :: 0 <= i < |r| ==> Skip(pageNumber) + i < |m| && r[i] == m[Skip(pageNumber) + i]
  {
    m[Min(Skip(pageNumber), |m|)..Min(Skip(pageNumber) + PageSize, |m|)]
  }

  datatype ProductPage = ProductPage(products: seq<ProductView>, page: int, pages: int)

  function GetProducts(catalog: seq<Product>, keyword: Option<string>, pageNumber: int, nameMatches: (string, string) -> bool): (r: Result<ProductPage>)
    ensures r.Err? <==> pageNumber < 1
    ensures r.Err? ==> r.error == HttpError(Unprocessable, PageNumberTooSmall)
    ensures r.Ok? ==> r.value.page == pageNumber && r.value.pages >= 1
    ensures r.Ok? ==> r.value.pages == PageCount(|Matching(catalog, keyword, nameMatches)|)
    ensures r.Ok? ==> |r.value.products| <= PageSize
    ensures r.Ok? ==> r.value.products == Views(Window(Matching(catalog, keyword, nameMatches), pageNumber))
  {
    if pageNumber < 1 then Err(HttpError(Unprocessable, PageNumberTooSmall))
    else
      var m := Matching(catalog, keyword, nameMatches);
      Ok(ProductPage(Views(Window(m, pageNumber)), pageNumber, PageCount(|m|)))
  }

  /** Pages 1 to n, concatenated. */
  function FirstPages<T>(m: seq<T>, n: nat): seq<T>
    decreases n
  {
    if n == 0 then [] else FirstPages(m, n - 1) + Window(m, n)
  }

  lemma {:induction false} FirstPagesArePrefix<T>(m: seq<T>, n: nat)
    ensures FirstPages(m, n) == m[..Min(PageSize * n, |m|)]
  {
    if n > 0 {
      FirstPagesArePrefix(m, n - 1);
      assert m[..Min(PageSize * n, |m|)] == m[..Min(PageSize * (n - 1), |m|)] + Window(m, n);
    }
  }

  /** The pages partition the result: read in order, pages 1 to `pages`
      give back every matching product exactly once, in order. */
  lemma PagesPartitionResult<T>(m: seq<T>)
    ensures FirstPages(m, PageCount(|m|)) == m
  {
    FirstPagesArePrefix(m, PageCount(|m|));
  }

  /** A page past the reported page count is empty; a page within it is not,
      unless nothing matched. */
  lemma PageWithinCount<T>(m: seq<T>, pageNumber: int)
    requires pageNumber >= 1
    ensures pageNumber > PageCount(|m|) ==> Window(m, pageNumber) == []
    ensures 0 < |m| && pageNumber <= PageCount(|m|) ==> |Window(m, pageNumber)| > 0
  {
  }

  /** Every listed product matches the keyword and comes from the catalog. */
  lemma ListedProductsMatch(catalog: seq<Product>, keyword: Option<string>, nameMatches: (string, string) -> bool, pageNumber: int, i: int)
    requires pageNumber >= 1
    requires 0 <= i < |Window(Matching(catalog, keyword, nameMatches), pageNumber)|
    ensures var p := Window(Matching(catalog, keyword, nameMatches), pageNumber)[i];
            p in catalog && (Truthy(keyword) ==> nameMatches(keyword.value, p.name))
  {
    if Truthy(keyword) {
      Seqs.FilterMembers(catalog, (p: Product) => nameMatches(keyword.value, p.name));
    }
  }

  // ----- top rated -----

  predicate RatingDescending(s: seq<Product>) {
    forall i, j :: 0 <= i < j < |s| ==> s[i].rating >= s[j].rating
  }

  function InsertByRating(p: Product, s: seq<Product>): (r: seq<Product>)
    requires RatingDescending(s)
    ensures |r| == |s| + 1
    ensures forall k :: 0 <= k < |r| ==> r[k] == p || r[k] in s
    ensures RatingDescending(r)
    ensures multiset(r) == multiset(s) + multiset{p}
  {
    if |s| == 0 then [p]
    else if p.rating >= s[0].rating then [p] + s
    else
      var rest := InsertByRating(p, s[1..]);
      HeadBoundsInsertion(p, s, rest);
      ConsMembers(s, rest, p);
      assert s == [s[0]] + s[1..];
      [s[0]] + rest
  }

  /** The head of a descending list bounds anything inserted behind it. */
  lemma HeadBoundsInsertion(p: Product, s: seq<Product>, rest: seq<Product>)
    requires |s| > 0 && RatingDescending(s) && p.rating < s[0].rating
    requires forall k :: 0 <= k < |rest| ==> rest[k] == p || rest[k] in s[1..]
    ensures forall k :: 0 <= k < |rest| ==> s[0].rating >= rest[k].rating
    ensures RatingDescending([s[0]] + rest) <== RatingDescending(rest)
  {
    forall k | 0 <= k < |rest| ensures s[0].rating >= rest[k].rating {
      if rest[k] != p {
        var j :| 0 <= j < |s[1..]| && s[1..][j] == rest[k];
        assert s[j + 1] == rest[k];
      }
    }
  }

  /** Putting the head back in front of the insertion into the tail. */
  lemma ConsMembers(s: seq<Product>, rest: seq<Product>, p: Product)
    requires |s| > 0
    requires forall k :: 0 <= k < |rest| ==> rest[k] == p || rest[k] in s[1..]
    requires multiset(rest) == multiset(s[1..]) + multiset{p}
    ensures forall k :: 0 <= k < |rest| + 1 ==> ([s[0]] + rest)[k] == p || ([s[0]] + rest)[k] in s
    ensures multiset([s[0]] + rest) == multiset(s) + multiset{p}
  {
    assert s == [s[0]] + s[1..];
    forall k | 0 <= k < |rest| + 1 ensures ([s[0]] + rest)[k] == p || ([s[0]] + rest)[k] in s {
      if k > 0 {
        assert ([s[0]] + rest)[k] == rest[k - 1];
      }
    }
  }

  /** The catalog by rating, highest first. */
  function SortByRating(s: seq<Product>): (r: seq<Product>)
    ensures |r| == |s|
    ensures RatingDescending(r)
    ensures multiset(r) == multiset(s)
  {
    if |s| == 0 then []
    else
      assert s == [s[0]] + s[1..];
      InsertByRating(s[0], SortByRating(s[1..]))
  }

  /** A prefix keeps the order and takes part of the contents. */
  lemma PrefixOfDescending(s: seq<Product>, n: nat)
    requires n <= |s| && RatingDescending(s)
    ensures RatingDescending(s[..n])
    ensures multiset(s[..n]) <= multiset(s)
    ensures multiset(s) - multiset(s[..n]) == multiset(s[n..])
  {
    assert s == s[..n] + s[n..];
  }

  /** `sort("-rating").limit(3)`. The store leaves the order among equal
      ratings open; this model takes the one insertion by rating gives. */
  function TopProducts(catalog: seq<Product>): (r: seq<Product>)
    ensures |r| == Min(TopCount, |catalog|)
    ensures RatingDescending(r)
    ensures multiset(r) <= multiset(catalog)
  {
    var sorted := SortByRating(catalog);
    PrefixOfDescending(sorted, Min(TopCount, |catalog|));
    sorted[..Min(TopCount, |catalog|)]
  }

  /** What the top listing leaves out is the rest of the sorted catalog. */
  lemma LeftOutIsTail(catalog: seq<Product>)
    ensures |TopProducts(catalog)| <= |catalog|
    ensures multiset(catalog) - multiset(TopProducts(catalog))
            == multiset(SortByRating(catalog)[|TopProducts(catalog)|..])
  {
    var sorted := SortByRating(catalog);
    var n := |TopProducts(catalog)|;
    assert TopProducts(catalog) == sorted[..n];
    PrefixOfDescending(sorted, n);
  }

  /** A product the top listing leaves out sits behind the listed prefix of
      the sorted catalog. */
  lemma LeftOutPosition(catalog: seq<Product>, p: Product) returns (k: nat)
    requires p in multiset(catalog) - multiset(TopProducts(catalog))
    ensures |TopProducts(catalog)| <= k < |catalog| && SortByRating(catalog)[k] == p
  {
    LeftOutIsTail(catalog);
    var n := |TopProducts(catalog)|;
    var tail := SortByRating(catalog)[n..];
    assert p in tail;
    var j :| 0 <= j < |tail| && tail[j] == p;
    k := n + j;
  }

  /** What the top listing leaves out is rated no higher than anything it
      shows. */
  lemma TopProductsAreTop(catalog: seq<Product>, p: Product)
    requires p in multiset(catalog) - multiset(TopProducts(catalog))
    ensures forall i :: 0 <= i < |TopProducts(catalog)| ==> p.rating <= TopProducts(catalog)[i].rating
  {
    var sorted := SortByRating(catalog);
    var top := TopProducts(catalog);
    var k := LeftOutPosition(catalog, p);
    forall i | 0 <= i < |top| ensures p.rating <= top[i].rating {
      assert top[i] == sorted[i];
    }
  }

  function GetTopProducts(s: Store.Store): (r: seq<ProductView>)
    ensures |r| <= TopCount
    ensures forall i, j :: 0 <= i < j < |r| ==> r[i].rating >= r[j].rating
  {
    Views(TopProducts(s.products))
  }

  // ----- single product -----

  /** The id text names the stored product at position `i`. */
  predicate Names(products: seq<Product>, idText: string, i: int) {
    0 <= i < |products| && ObjectIds.Parse(idText) == Some(products[i].id)
  }

  /** ... and no earlier product has that id: the one a lookup returns. */
  predicate FirstNamed(products: seq<Product>, idText: string, i: int) {
    Names(products, idText, i) && forall j :: 0 <= j < i ==> !Names(products, idText, j)
  }

  function FindProduct(s: Store.Store, idText: string): (r: Result<nat>)
    ensures r.Ok? ==> FirstNamed(s.products, idText, r.value)
    ensures r.Err? <==> forall i :: 0 <= i < |s.products| ==> !Names(s.products, idText, i)
    ensures r.Err? ==> r.error == HttpError(NotFound, ProductNotFound)
  {
    assert forall i :: 0 <= i < |s.products| ==> Store.ProductId(s.products[i]) == s.products[i].id;
    assert forall i :: 0 <= i < |s.products|
             ==> (Names(s.products, idText, i) <==> ObjectIds.Parse(idText) == Some(Store.ProductId(s.products[i])));
    Store.LookupById(s.products, Store.ProductId, idText, ProductNotFound)
  }

  function GetProductById(s: Store.Store, idText: string): (r: Result<ProductView>)
    ensures r.Ok? <==> exists i :: Names(s.products, idText, i)
    ensures r.Ok? ==> exists i :: FirstNamed(s.products, idText, i) && r.value == View(s.products[i])
    ensures r.Err? ==> r.error == HttpError(NotFound, ProductNotFound)
  {
    var i :- FindProduct(s, idText);
    Ok(View(s.products[i]))
  }

  // ----- create -----

  /** The create body; an omitted field takes the value of `SampleProduct`. */
  datatype ProductCreate = ProductCreate(
    name: string, price: int, image: string, brand: string, category: string,
    countInStock: int, description: string)

  const SampleProduct := ProductCreate("Sample name", 0, "/images/sample.jpg", "Sample brand",
                                       "Sample category", 0, "Sample description")

  /** An id the store may assign to a new product. */
  predicate FreshProductId(s: Store.Store, id: string) {
    ObjectIds.IsCanonical(id) && forall i :: 0 <= i < |s.products| ==> s.products[i].id != id
  }

  function CreateProduct(s: Store.Store, caller: Principal, data: ProductCreate, newId: string, now: Time): (r: Result<Store.Outcome<ProductView>>)
    requires FreshProductId(s, newId)
    ensures !caller.isAdmin ==> r == Err(HttpError(Forbidden, AdminRequired))
    ensures caller.isAdmin ==> (r.Ok? <==> data.price >= 0)
    ensures r.Err? && caller.isAdmin ==> r.error.status == InternalError
    ensures r.Ok? ==> |r.value.store.products| == |s.products| + 1
                      && r.value.store == s.(products := s.products + [r.value.store.products[|s.products|]])
    ensures r.Ok? ==> var p := r.value.store.products[|s.products|];
                      && p.id == newId && p.user == caller.id
                      && p.name == data.name && p.price == data.price && p.image == data.image
                      && p.brand == data.brand && p.category == data.category
                      && p.countInStock == data.countInStock && p.description == data.description
                      && p.reviews == [] && p.numReviews == 0 && p.rating == 0.0
                      && WithinDeclaredBounds(p)
                      && r.value.body == View(p)
  {
    if !caller.isAdmin then Err(HttpError(Forbidden, AdminRequired))
    else
      var p :- NewProduct(newId, caller.id, data.name, data.image, data.brand, data.category,
                          data.description, data.price, data.countInStock, now);
      var saved := Save(p, now);
      Ok(Store.Outcome(s.(products := s.products + [saved]), View(saved)))
  }

  /** An admin's create with an empty body stores the sample product: owned
      by the admin, free, out of stock and unreviewed. */
  lemma EmptyBodyCreatesSample(s: Store.Store, caller: Principal, newId: string, now: Time)
    requires FreshProductId(s, newId) && caller.isAdmin
    ensures var r := CreateProduct(s, caller, SampleProduct, newId, now);
            && r.Ok?
            && var p := r.value.store.products[|s.products|];
            && p.id == newId && p.user == caller.id
            && p.name == "Sample name" && p.price == 0 && p.image == "/images/sample.jpg"
            && p.brand == "Sample brand" && p.category == "Sample category"
            && p.countInStock == 0 && p.description == "Sample description"
            && p.reviews == [] && p.numReviews == 0
  {
  }

  /** A created product is found under its new id, as the create response
      showed it. */
  lemma CreatedProductIsFound(s: Store.Store, caller: Principal, data: ProductCreate, newId: string, now: Time)
    requires FreshProductId(s, newId)
    requires CreateProduct(s, caller, data, newId, now).Ok?
    ensures var out := CreateProduct(s, caller, data, newId, now).value;
            GetProductById(out.store, newId) == Ok(out.body)
  {
    var out := CreateProduct(s, caller, data, newId, now).value;
    ObjectIds.ParseCanonical(newId);
    assert Names(out.store.products, newId, |s.products|);
  }

  // ----- patch update -----

  /** The update body: every field optional. */
  datatype ProductUpdate = ProductUpdate(
    name: Option<string>, price: Option<int>, description: Option<string>, image: Option<string>,
    brand: Option<string>, category: Option<string>, countInStock: Option<int>)

  /** A string field is replaced only by a non-empty value; the numbers are
      replaced by any value present, zero included. */
  function Patch(p: Product, u: ProductUpdate): Product {
    p.(name := if Truthy(u.name) then u.name.value else p.name,
       price := if u.price.Some? then u.price.value else p.price,
       description := if Truthy(u.description) then u.description.value else p.description,
       image := if Truthy(u.image) then u.image.value else p.image,
       brand := if Truthy(u.brand) then u.brand.value else p.brand,
       category := if Truthy(u.category) then u.category.value else p.category,
       countInStock := if u.countInStock.Some? then u.countInStock.value else p.countInStock)
  }

  function UpdateProduct(s: Store.Store, caller: Principal, idText: string, u: ProductUpdate, now: Time): (r: Result<Store.Outcome<ProductView>>)
    ensures !caller.isAdmin ==> r == Err(HttpError(Forbidden, AdminRequired))
    ensures caller.isAdmin ==> (r.Ok? <==> exists i :: Names(s.products, idText, i))
    ensures caller.isAdmin && r.Err? ==> r.error == HttpError(NotFound, ProductNotFound)
    ensures r.Ok? ==> exists i :: (FirstNamed(s.products, idText, i)
                      && r.value.store == s.(products := s.products[i := Save(Patch(s.products[i], u), now)])
                      && r.value.body == View(Save(Patch(s.products[i], u), now)))
  {
    if !caller.isAdmin then Err(HttpError(Forbidden, AdminRequired))
    else
      var i :- FindProduct(s, idText);
      var updated := Save(Patch(s.products[i], u), now);
      Ok(Store.Outcome(s.(products := s.products[i := updated]), View(updated)))
  }

  /** Patch semantics field by field: an empty string leaves its field, a
      zero number is applied, and the owner, reviews, rating and review
      count are never touched. */
  lemma PatchFields(p: Product, u: ProductUpdate)
    ensures var q := Patch(p, u);
            && (q.name == p.name <== !Truthy(u.name))
            && (Truthy(u.name) ==> q.name == u.name.value)
            && (u.price.Some? ==> q.price == u.price.value)
            && (u.price.None? ==> q.price == p.price)
            && (u.countInStock.Some? ==> q.countInStock == u.countInStock.value)
            && (u.countInStock.None? ==> q.countInStock == p.countInStock)
            && (Truthy(u.description) ==> q.description == u.description.value)
            && (!Truthy(u.description) ==> q.description == p.description)
            && (Truthy(u.image) ==> q.image == u.image.value)
            && (!Truthy(u.image) ==> q.image == p.image)
            && (Truthy(u.brand) ==> q.brand == u.brand.value)
            && (!Truthy(u.brand) ==> q.brand == p.brand)
            && (Truthy(u.category) ==> q.category == u.category.value)
            && (!Truthy(u.category) ==> q.category == p.category)
            && q.id == p.id && q.user == p.user && q.reviews == p.reviews
            && q.rating == p.rating && q.numReviews == p.numReviews
            && q.createdAt == p.createdAt && q.updatedAt == p.updatedAt
  {
  }

  /** Applying the same patch twice is applying it once. */
  lemma PatchIdempotent(p: Product, u: ProductUpdate)
    ensures Patch(Patch(p, u), u) == Patch(p, u)
  {
  }

  /** A body of absent or empty fields changes nothing. */
  lemma EmptyPatchIsIdentity(p: Product, u: ProductUpdate)
    requires !Truthy(u.name) && !Truthy(u.description) && !Truthy(u.image)
    requires !Truthy(u.brand) && !Truthy(u.category)
    requires u.price.None? && u.countInStock.None?
    ensures Patch(p, u) == p
  {
  }

  /** The document's bounds are checked at construction only, so an update
      may store a negative price. */
  lemma UpdateMayBreakPriceBound(p: Product, u: ProductUpdate)
    requires u.price == Some(-1)
    ensures !WithinDeclaredBounds(Patch(p, u))
  {
  }

  // ----- delete -----

  function DeleteProduct(s: Store.Store, caller: Principal, idText: string): (r: Result<Store.Outcome<string>>)
    ensures !caller.isAdmin ==> r == Err(HttpError(Forbidden, AdminRequired))
    ensures caller.isAdmin ==> (r.Ok? <==> exists i :: Names(s.products, idText, i))
    ensures caller.isAdmin && r.Err? ==> r.error == HttpError(NotFound, ProductNotFound)
    ensures r.Ok? ==> r.value.body == "Product removed"
                      && exists i :: (FirstNamed(s.products, idText, i)
                      && r.value.store == s.(products := Seqs.RemoveAt(s.products, i)))
  {
    if !caller.isAdmin then Err(HttpError(Forbidden, AdminRequired))
    else
      var i :- FindProduct(s, idText);
      Ok(Store.Outcome(s.(products := Seqs.RemoveAt(s.products, i)), "Product removed"))
  }

  /** With unique ids, a deleted product is no longer found. */
  lemma DeletedProductIsGone(s: Store.Store, caller: Principal, idText: string)
    requires Store.UniqueIds(s.products, Store.ProductId)
    requires DeleteProduct(s, caller, idText).Ok?
    ensures GetProductById(DeleteProduct(s, caller, idText).value.store, idText).Err?
  {
    var i := FindProduct(s, idText).value;
    var after := DeleteProduct(s, caller, idText).value.store.products;
    assert after == Seqs.RemoveAt(s.products, i);
    forall j | 0 <= j < |after| ensures !Names(after, idText, j) {
      if j < i {
        assert after[j] == s.products[j];
        assert Store.ProductId(s.products[j]) != Store.ProductId(s.products[i]);
      } else {
        assert after[j] == s.products[j + 1];
        assert Store.ProductId(s.products[i]) != Store.ProductId(s.products[j + 1]);
      }
    }
  }

  // ----- reviews -----

  datatype ReviewCreate = ReviewCreate(rating: int, comment: string)

  /** Some review on the product is by this user. */
  predicate ReviewedBy(p: Product, user: string) {
    exists i :: 0 <= i < |p.reviews| && p.reviews[i].user == user
  }

  /** The product with one more review: the count and the mean rating are
      recomputed from the whole list. */
  function WithReview(p: Product, rv: Review): Product {
    var reviews := p.reviews + [rv];
    p.(reviews := reviews, numReviews := |reviews|, rating := MeanRating(reviews))
  }

  /** `q` is `p` with the review `rv` appended at time `now`: the count and
      the mean rating cover the new list, and nothing else changes. */
  predicate AddsReview(p: Product, q: Product, rv: Review, now: Time) {
    && q.reviews == p.reviews + [rv]
    && q.numReviews == |q.reviews|
    && q.rating == MeanRating(q.reviews)
    && q.updatedAt == now
    && q.(reviews := p.reviews, numReviews := p.numReviews, rating := p.rating, updatedAt := p.updatedAt) == p
  }

  function CreateProductReview(s: Store.Store, caller: Principal, idText: string, data: ReviewCreate, now: Time): (r: Result<Store.Outcome<string>>)
    ensures !(MinReviewRating <= data.rating <= MaxReviewRating) ==> r == Err(HttpError(Unprocessable, ReviewRatingOutOfRange))
    ensures MinReviewRating <= data.rating <= MaxReviewRating && (forall i :: 0 <= i < |s.products| ==> !Names(s.products, idText, i))
            ==> r == Err(HttpError(NotFound, ProductNotFound))
    ensures r.Ok? <==> && MinReviewRating <= data.rating <= MaxReviewRating
                       && exists i :: FirstNamed(s.products, idText, i) && !ReviewedBy(s.products[i], caller.id)
    ensures r.Ok? ==> r.value.body == "Review added" && |r.value.store.products| == |s.products|
    ensures r.Ok? ==> exists i :: (FirstNamed(s.products, idText, i)
                      && r.value.store == s.(products := s.products[i := r.value.store.products[i]])
                      && AddsReview(s.products[i], r.value.store.products[i],
                                    Review(caller.name, data.rating, data.comment, caller.id, now, now), now))
  {
    if !(MinReviewRating <= data.rating <= MaxReviewRating) then Err(HttpError(Unprocessable, ReviewRatingOutOfRange))
    else
      var i :- FindProduct(s, idText);
      assert forall j :: FirstNamed(s.products, idText, j) ==> j == i;
      if ReviewedBy(s.products[i], caller.id) then Err(HttpError(BadRequest, "Product already reviewed"))
      else Ok(AddReviewAt(s, i, caller, data, now))
  }

  /** The review appended to the product at position `i`, saved. */
  function AddReviewAt(s: Store.Store, i: nat, caller: Principal, data: ReviewCreate, now: Time): (out: Store.Outcome<string>)
    requires i < |s.products| && MinReviewRating <= data.rating <= MaxReviewRating
    ensures out.body == "Review added" && |out.store.products| == |s.products|
    ensures out.store == s.(products := s.products[i := out.store.products[i]])
    ensures AddsReview(s.products[i], out.store.products[i],
                       Review(caller.name, data.rating, data.comment, caller.id, now, now), now)
  {
    var rv := NewReview(caller.name, data.rating, data.comment, caller.id, now).value;
    var q := Save(WithReview(s.products[i], rv), now);
    Store.Outcome(s.(products := s.products[i := q]), "Review added")
  }

  /** What the product's review fields promise: each review is valid and by
      a distinct user, the count is the list's length, and the rating is the
      mean of the review ratings (zero before the first review). */
  predicate ReviewsConsistent(p: Product) {
    && (forall i :: 0 <= i < |p.reviews| ==> ValidReview(p.reviews[i]))
    && (forall i, j :: 0 <= i < j < |p.reviews| ==> p.reviews[i].user != p.reviews[j].user)
    && p.numReviews == |p.reviews|
    && (if |p.reviews| == 0 then p.rating == 0.0 else p.rating == MeanRating(p.reviews))
  }

  lemma ConsistentRatingInBounds(p: Product)
    requires ReviewsConsistent(p)
    ensures 0.0 <= p.rating <= 5.0
  {
    if |p.reviews| > 0 {
      MeanRatingBounds(p.reviews);
    }
  }

  lemma CreateEstablishesConsistency(s: Store.Store, caller: Principal, data: ProductCreate, newId: string, now: Time)
    requires FreshProductId(s, newId)
    requires CreateProduct(s, caller, data, newId, now).Ok?
    ensures ReviewsConsistent(CreateProduct(s, caller, data, newId, now).value.store.products[|s.products|])
  {
  }

  lemma UpdatePreservesConsistency(p: Product, u: ProductUpdate, now: Time)
    requires ReviewsConsistent(p)
    ensures ReviewsConsistent(Save(Patch(p, u), now))
  {
  }

  /** Adding a valid review by a user who has not reviewed the product keeps
      its review fields consistent. */
  lemma WithReviewKeepsConsistency(p: Product, rv: Review, now: Time)
    requires ReviewsConsistent(p)
    requires ValidReview(rv) && !ReviewedBy(p, rv.user)
    ensures ReviewsConsistent(Save(WithReview(p, rv), now))
  {
    var q := Save(WithReview(p, rv), now);
    assert q.reviews == p.reviews + [rv];
    assert forall i :: 0 <= i < |p.reviews| ==> p.reviews[i].user != rv.user;
  }

  lemma ReviewPreservesConsistency(s: Store.Store, caller: Principal, idText: string, data: ReviewCreate, now: Time)
    requires CreateProductReview(s, caller, idText, data, now).Ok?
    requires forall i :: 0 <= i < |s.products| ==> ReviewsConsistent(s.products[i])
    ensures var after := CreateProductReview(s, caller, idText, data, now).value.store.products;
            forall i :: 0 <= i < |after| ==> ReviewsConsistent(after[i])
  {
    var k := FindProduct(s, idText).value;
    var rv := NewReview(caller.name, data.rating, data.comment, caller.id, now).value;
    WithReviewKeepsConsistency(s.products[k], rv, now);
  }

  /** One review per user: once a customer's review is in, a second review
      by them of the same product is refused with 400 and changes nothing. */
  lemma SecondReviewRefused(s: Store.Store, caller: Principal, idText: string, data: ReviewCreate, data2: ReviewCreate, now: Time, now2: Time)
    requires CreateProductReview(s, caller, idText, data, now).Ok?
    requires MinReviewRating <= data2.rating <= MaxReviewRating
    ensures var s1 := CreateProductReview(s, caller, idText, data, now).value.store;
            CreateProductReview(s1, caller, idText, data2, now2) == Err(HttpError(BadRequest, "Product already reviewed"))
  {
    var k := FindProduct(s, idText).value;
    var s1 := CreateProductReview(s, caller, idText, data, now).value.store;
    var q := s1.products[k];
    assert Names(s1.products, idText, k);
    forall j | 0 <= j < k ensures !Names(s1.products, idText, j) {
      assert s1.products[j] == s.products[j];
    }
    assert q.reviews[|q.reviews| - 1].user == caller.id;
  }
}

=== FILE: seqs.dfy ===
/** Generic sequence helpers: first-match search, order-preserving filter and
    removal by position. A document collection is a sequence in the store's
    natural order, so these are the store's query primitives. */
module Seqs {
  import opened Wrappers

  /** The position of the first element satisfying `p`, if any. */
  function FirstIndex<T>(s: seq<T>, p: T -> bool): (r: Option<nat>)
    ensures r.Some? ==> r.value < |s| && p(s[r.value])
    ensures r.Some? ==> forall j :: 0 <= j < r.value ==> !p(s[j])
    ensures r.None? <==> forall j :: 0 <= j < |s| ==> !p(s[j])
  {
    if |s| == 0 then None
    else if p(s[0]) then Some(0)
    else match FirstIndex(s[1..], p) {
      case None => None
      case Some(k) => Some(k + 1)
    }
  }

  /** The elements of `s` satisfying `p`, in their original order. */
  function Filter<T>(s: seq<T>, p: T -> bool): (r: seq<T>)
    ensures |r| <= |s|
  {
    if |s| == 0 then []
    else if p(s[0]) then [s[0]] + Filter(s[1..], p)
    else Filter(s[1..], p)
  }

  /** The filter keeps exactly the members of `s` satisfying `p`. */
  lemma {:induction false} FilterMembers<T>(s: seq<T>, p: T -> bool)
    ensures forall i :: 0 <= i < |Filter(s, p)| ==> p(Filter(s, p)[i]) && Filter(s, p)[i] in s
    ensures forall i :: 0 <= i < |s| && p(s[i]) ==> s[i] in Filter(s, p)
  {
    if |s| > 0 {
      FilterMembers(s[1..], p);
      assert forall i :: 1 <= i < |s| ==> s[i] == s[1..][i - 1];
    }
  }

  /** Filtering keeps exactly the matching elements with their multiplicity. */
  lemma {:induction false} FilterMultiset<T>(s: seq<T>, p: T -> bool, x: T)
    ensures multiset(Filter(s, p))[x] == if p(x) then multiset(s)[x] else 0
  {
    if |s| > 0 {
      FilterMultiset(s[1..], p, x);
      assert s == [s[0]] + s[1..];
    }
  }

  /** Filtering distributes over concatenation. */
  lemma {:induction false} FilterAppend<T>(a: seq<T>, b: seq<T>, p: T -> bool)
    ensures Filter(a + b, p) == Filter(a, p) + Filter(b, p)
  {
    if |a| == 0 {
      assert a + b == b;
    } else {
      assert (a + b)[1..] == a[1..] + b;
      FilterAppend(a[1..], b, p);
    }
  }

  /** `s` without the element at position `i`; every other element keeps its
      relative order. */
  function RemoveAt<T>(s: seq<T>, i: nat): (r: seq<T>)
    requires i < |s|
    ensures |r| == |s| - 1
    ensures forall j :: 0 <= j < i ==> r[j] == s[j]
    ensures forall j :: i <= j < |r| ==> r[j] == s[j + 1]
  {
    s[..i] + s[i + 1..]
  }

  /** Removing an element the filter rejects does not change the filter. */
  lemma {:induction false} RemoveRejected<T>(s: seq<T>, i: nat, p: T -> bool)
    requires i < |s| && !p(s[i])
    ensures Filter(RemoveAt(s, i), p) == Filter(s, p)
  {
    if i == 0 {
      assert RemoveAt(s, i) == s[1..];
    } else {
      RemoveRejected(s[1..], i - 1, p);
      assert RemoveAt(s, i) == [s[0]] + RemoveAt(s[1..], i - 1);
      assert RemoveAt(s, i)[1..] == RemoveAt(s[1..], i - 1);
    }
  }
}

=== FILE: store.dfy ===
/** The database: each collection is the sequence of its documents in the
    store's natural (insertion) order, which is the order `find`, `find_one`
    and `find_all` return them in. Lookup by id parses the path text as an
    ObjectId first; a malformed id and an absent one both give 404. */
module Store {
  import opened Wrappers
  import ObjectIds
  import Seqs
  import OrderModel
  import ProductModel
  import UserModel

  datatype Store = Store(
    orders: seq<OrderModel.Order>,
    products: seq<ProductModel.Product>,
    users: seq<UserModel.User>)

  /** A successful request: the store after it and the response body. */
  datatype Outcome<T> = Outcome(store: Store, body: T)

  function OrderId(o: OrderModel.Order): string { o.id }
  function ProductId(p: ProductModel.Product): string { p.id }
  function UserId(u: UserModel.User): string { u.id }

  /** `Model.get(ObjectId(text))`: the position of the document, or 404 with
      the given detail when the text is not an ObjectId or no document has
      that id. */
  function LookupById<T>(docs: seq<T>, idOf: T -> string, idText: string, notFound: string): (r: Result<nat>)
    ensures r.Ok? ==> ObjectIds.Parse(idText).Some? && r.value < |docs|
                      && idOf(docs[r.value]) == ObjectIds.Parse(idText).value
    ensures r.Ok? ==> forall j :: 0 <= j < r.value ==> idOf(docs[j]) != ObjectIds.Parse(idText).value
    ensures r.Err? ==> r.error == HttpError(NotFound, notFound)
    ensures r.Err? <==> ObjectIds.Parse(idText).None?
                        || forall i :: 0 <= i < |docs| ==> idOf(docs[i]) != ObjectIds.Parse(idText).value
    ensures r.Err? <==> forall i :: 0 <= i < |docs| ==> ObjectIds.Parse(idText) != Some(idOf(docs[i]))
  {
    match ObjectIds.Parse(idText)
    case None => Err(HttpError(NotFound, notFound))
    case Some(key) =>
      match Seqs.FirstIndex(docs, (d: T) => idOf(d) == key)
      case None => Err(HttpError(NotFound, notFound))
      case Some(i) => Ok(i)
  }

  /** No two documents of a collection share an id. */
  predicate UniqueIds<T>(docs: seq<T>, idOf: T -> string) {
    forall i, j :: 0 <= i < j < |docs| ==> idOf(docs[i]) != idOf(docs[j])
  }

  /** With unique ids, lookup finds THE document with the id: any position
      holding that id is the one returned. */
  lemma LookupFindsTheDocument<T>(docs: seq<T>, idOf: T -> string, idText: string, notFound: string, k: nat)
    requires UniqueIds(docs, idOf)
    requires k < |docs| && ObjectIds.Parse(idText) == Some(idOf(docs[k]))
    ensures LookupById(docs, idOf, idText, notFound) == Ok(k)
  {
    assert LookupById(docs, idOf, idText, notFound).Ok?;
  }
}

=== FILE: upload.dfy ===
/** The image upload endpoint's decision: the file name's suffix, in lower
    case, must be one of six image extensions; the stored name is a fresh
    UUID plus that suffix under `uploads/`, and the response names it as an
    absolute URL path. The suffix follows the rules of Python's
    `PurePosixPath(...).suffix`. */
module Upload {
  import opened Wrappers

  const UploadDir := "uploads"
  const AllowedExtensions: set<string> := {".jpg", ".jpeg", ".png", ".gif", ".webp", ".avif"}
  const NoFile := "No file uploaded"
  const InvalidTypePrefix := "Invalid file type. Allowed: "
  const Uploaded := "File uploaded successfully"

  // ----- text helpers -----

  /** The position of the last `c` in `s`, as `str.rfind` finds it. */
  function LastIndexOf(s: string, c: char): (r: Option<nat>)
    ensures r.Some? ==> r.value < |s| && s[r.value] == c
    ensures r.Some? ==> forall j :: r.value < j < |s| ==> s[j] != c
    ensures r.None? <==> forall j :: 0 <= j < |s| ==> s[j] != c
  {
    if |s| == 0 then None
    else if s[|s| - 1] == c then Some(|s| - 1)
    else LastIndexOf(s[..|s| - 1], c)
  }

  /** The last occurrence is determined by the characters after it. */
  lemma LastIndexOfIs(s: string, c: char, i: nat)
    requires i < |s| && s[i] == c
    requires forall j :: i < j < |s| ==> s[j] != c
    ensures LastIndexOf(s, c) == Some(i)
  {
  }

  function LowerChar(c: char): char {
    if 'A' <= c <= 'Z' then (c as int + 32) as char else c
  }

  /** `str.lower()` on the ASCII letters; every other character is kept. */
  function Lower(s: string): (r: string)
    ensures |r| == |s|
    ensures forall i :: 0 <= i < |s| ==> r[i] == LowerChar(s[i])
  {
    seq(|s|, i requires 0 <= i < |s| => LowerChar(s[i]))
  }

  lemma LowerIdempotent(s: string)
    ensures Lower(Lower(s)) == Lower(s)
  {
  }

  function Join(sep: string, parts: seq<string>): string {
    if |parts| == 0 then ""
    else if |parts| == 1 then parts[0]
    else parts[0] + sep + Join(sep, parts[1..])
  }

  // ----- the path's suffix -----

  /** The final component of a POSIX path, as `name` gives it: empty and `.`
      components are dropped, so trailing slashes do not count. */
  function Name(path: string): (r: string)
    ensures forall i :: 0 <= i < |r| ==> r[i] != '/'
    ensures r != "."
    decreases |path|
  {
    match LastIndexOf(path, '/')
    case None => if path == "." then "" else path
    case Some(i) =>
      var segment := path[i + 1..];
      if segment == "" || segment == "." then Name(path[..i]) else segment
  }

  /** A path whose last slash is followed by a proper segment names that
      segment. */
  lemma NameIsLastSegment(path: string, i: nat)
    requires i < |path| && path[i] == '/'
    requires forall j :: i < j < |path| ==> path[j] != '/'
    requires path[i + 1..] != "" && path[i + 1..] != "."
    ensures Name(path) == path[i + 1..]
  {
    LastIndexOfIs(path, '/', i);
  }

  lemma NameWithoutSlash(path: string)
    requires forall j :: 0 <= j < |path| ==> path[j] != '/'
    requires path != "."
    ensures Name(path) == path
  {
  }

  /** `suffix`: from the last dot of the name, when that dot is neither the
      first nor the last character; otherwise empty. */
  function Suffix(name: string): (r: string)
    ensures r == "" || (2 <= |r| < |name| && r == name[|name| - |r|..])
    ensures r != "" ==> r[0] == '.' && forall j :: 1 <= j < |r| ==> r[j] != '.'
  {
    match LastIndexOf(name, '.')
    case None => ""
    case Some(i) => if 0 < i < |name| - 1 then name[i..] else ""
  }

  /** The extension the check compares. */
  function Extension(filename: string): string {
    Lower(Suffix(Name(filename)))
  }

  // ----- the endpoint -----

  datatype UploadReply = UploadReply(message: string, image: string)

  /** The UUID's text form: 36 lower-case hex digits and hyphens. */
  predicate IsUuidText(u: string) {
    |u| == 36 && forall i :: 0 <= i < |u| ==> ('0' <= u[i] <= '9' || 'a' <= u[i] <= 'f' || u[i] == '-')
  }

  /** The upload of the file named `filename` (absent: no file), under the
      fresh `uuid`. `allowedOrder` is the order in which the process
      iterates the allow-list set, which string hashing makes differ from
      run to run; `writeError` is the failure of writing the file, if any. */
  function UploadFile(filename: Option<string>, uuid: string, allowedOrder: seq<string>, writeError: Option<string>): (r: Result<UploadReply>)
    ensures filename.None? ==> r == Err(HttpError(BadRequest, NoFile))
    ensures filename.Some? && Extension(filename.value) !in AllowedExtensions
            ==> r == Err(HttpError(BadRequest, InvalidTypePrefix + Join(", ", allowedOrder)))
    ensures filename.Some? && Extension(filename.value) in AllowedExtensions && writeError.Some?
            ==> r == Err(HttpError(InternalError, "Failed to save file: " + writeError.value))
    ensures r.Ok? <==> filename.Some? && Extension(filename.value) in AllowedExtensions && writeError.None?
    ensures r.Ok? ==> r.value.message == Uploaded
                      && r.value.image == "/" + UploadDir + "/" + uuid + Extension(filename.value)
  {
    if filename.None? then Err(HttpError(BadRequest, NoFile))
    else
      var ext := Extension(filename.value);
      if ext !in AllowedExtensions then Err(HttpError(BadRequest, InvalidTypePrefix + Join(", ", allowedOrder)))
      else
        var filePath := UploadDir + "/" + uuid + ext;
        if writeError.Some? then Err(HttpError(InternalError, "Failed to save file: " + writeError.value))
        else Ok(UploadReply(Uploaded, "/" + filePath))
  }

  /** The case of the suffix does not matter: an upper-case `.PNG` is
      accepted and stored as `.png`. */
  lemma UpperCaseSuffixAccepted(uuid: string)
    ensures UploadFile(Some("photo.PNG"), uuid, [], None) == Ok(UploadReply(Uploaded, "/uploads/" + uuid + ".png"))
  {
    NameWithoutSlash("photo.PNG");
    LastIndexOfIs("photo.PNG", '.', 5);
    assert Suffix("photo.PNG") == ".PNG";
    assert Lower(".PNG") == ".png";
    assert "/" + UploadDir + "/" + uuid + ".png" == "/uploads/" + uuid + ".png";
  }

  /** Only the last suffix counts: a name that merely contains an image
      extension is refused. */
  lemma OnlyTheLastSuffixCounts()
    ensures Extension("cat.png.exe") == ".exe"
    ensures ".exe" !in AllowedExtensions
  {
    NameWithoutSlash("cat.png.exe");
    LastIndexOfIs("cat.png.exe", '.', 7);
    assert Suffix("cat.png.exe") == ".exe";
    assert Lower(".exe") == ".exe";
  }

  /** A leading dot is no suffix: a dot-file named like an extension is
      refused. */
  lemma DotFileHasNoSuffix()
    ensures Extension(".png") == ""
    ensures "" !in AllowedExtensions
  {
    NameWithoutSlash(".png");
    LastIndexOfIs(".png", '.', 0);
    assert Suffix(".png") == "";
  }

  /** A trailing slash does not change the final component. */
  lemma NameDropsTrailingSlash(path: string)
    ensures Name(path + "/") == Name(path)
  {
    var p := path + "/";
    LastIndexOfIs(p, '/', |path|);
    assert p[..|path|] == path;
    assert p[|path| + 1..] == "";
  }

  lemma CatJpgExtension()
    ensures Extension("images/cat.jpg") == ".jpg"
  {
    NameIsLastSegment("images/cat.jpg", 6);
    assert "images/cat.jpg"[7..] == "cat.jpg";
    LastIndexOfIs("cat.jpg", '.', 3);
    assert "cat.jpg"[3..] == ".jpg";
    assert Lower(".jpg") == ".jpg";
  }

  /** A trailing slash does not hide the final component. */
  lemma TrailingSlashIgnored()
    ensures Extension("images/cat.jpg/") == ".jpg"
  {
    NameDropsTrailingSlash("images/cat.jpg");
    assert "images/cat.jpg" + "/" == "images/cat.jpg/";
    CatJpgExtension();
  }

  lemma NoSlashInStoredName(uuid: string, ext: string)
    requires IsUuidText(uuid)
    requires forall i :: 0 <= i < |ext| ==> ext[i] != '/'
    ensures forall j :: 0 <= j < |uuid + ext| ==> (uuid + ext)[j] != '/'
  {
    var tail := uuid + ext;
    forall j | 0 <= j < |tail| ensures tail[j] != '/' {
      if j < |uuid| {
        assert tail[j] == uuid[j];
      } else {
        assert tail[j] == ext[j - |uuid|];
      }
    }
  }

  lemma StoredPathShape(tail: string)
    requires forall j :: 0 <= j < |tail| ==> tail[j] != '/'
    ensures ("/uploads/" + tail)[8] == '/'
    ensures forall j :: 8 < j < |"/uploads/" + tail| ==> ("/uploads/" + tail)[j] != '/'
    ensures ("/uploads/" + tail)[9..] == tail
  {
  }

  lemma NameOfStoredPath(uuid: string, ext: string)
    requires IsUuidText(uuid)
    requires forall i :: 0 <= i < |ext| ==> ext[i] != '/'
    ensures Name("/uploads/" + (uuid + ext)) == uuid + ext
  {
    NoSlashInStoredName(uuid, ext);
    StoredPathShape(uuid + ext);
    assert |uuid + ext| >= 36;
    NameIsLastSegment("/uploads/" + (uuid + ext), 8);
  }

  lemma SuffixOfStoredName(uuid: string, ext: string)
    requires IsUuidText(uuid)
    requires 2 <= |ext| && ext[0] == '.' && forall j :: 1 <= j < |ext| ==> ext[j] != '.'
    ensures Suffix(uuid + ext) == ext
  {
    var name := uuid + ext;
    assert name[36] == '.';
    assert forall j :: 36 < j < |name| ==> name[j] == ext[j - 36];
    LastIndexOfIs(name, '.', 36);
    assert name[36..] == ext;
  }

  /** The accepted extension contains no slash. */
  lemma ExtensionHasNoSlash(filename: string)
    ensures forall i :: 0 <= i < |Extension(filename)| ==> Extension(filename)[i] != '/'
  {
    var name := Name(filename);
    var suffix := Suffix(name);
    forall i | 0 <= i < |suffix| ensures suffix[i] != '/' {
      assert suffix[i] == name[|name| - |suffix| + i];
    }
  }

  /** The stored image path re-validates: its own extension is the accepted
      one, so the name the endpoint returns would itself be accepted. */
  lemma ReturnedPathRevalidates(filename: string, uuid: string, allowedOrder: seq<string>)
    requires IsUuidText(uuid)
    requires UploadFile(Some(filename), uuid, allowedOrder, None).Ok?
    ensures var image := UploadFile(Some(filename), uuid, allowedOrder, None).value.image;
            Extension(image) == Extension(filename) && Extension(image) in AllowedExtensions
  {
    var ext := Extension(filename);
    var suffix := Suffix(Name(filename));
    assert ext != "";
    ExtensionHasNoSlash(filename);
    assert "/" + UploadDir + "/" + uuid + ext == "/uploads/" + (uuid + ext);
    NameOfStoredPath(uuid, ext);
    SuffixOfStoredName(uuid, ext);
    LowerIdempotent(suffix);
  }
}

=== FILE: user_model.dfy ===
/** The user document as the routes use it. The password is held as stored;
    hashing and its verification belong to the user model, which is not part
    of this model, so verification is an abstract predicate supplied by the
    caller. */
module UserModel {
  import opened Wrappers

  datatype User = User(id: string, name: string, email: string, password: string, isAdmin: bool, createdAt: Time, updatedAt: Time)

  /** Registration: a fresh account is never an administrator. */
  function NewUser(id: string, name: string, email: string, password: string, now: Time): (u: User)
    ensures u.id == id && u.name == name && u.email == email && u.password == password
    ensures !u.isAdmin
    ensures u.createdAt == now && u.updatedAt == now
  {
    User(id, name, email, password, false, now, now)
  }

  /** Saving a user refreshes `updatedAt` and nothing else, taken to behave
      like the order's and the product's `save()`. */
  function Save(u: User, now: Time): (r: User)
    ensures r.updatedAt == now
    ensures r.(updatedAt := u.updatedAt) == u
  {
    u.(updatedAt := now)
  }
}

=== FILE: users.dfy ===
/** The user endpoints: login, registration, the caller's own profile update,
    and the administrator's get, update and delete. Each takes the store and
    returns either an HTTP error, leaving the store as it was, or the new
    store and the response. */
module Users {
  import opened Wrappers
  import opened UserModel
  import ObjectIds
  import Seqs
  import Store

  const UserNotFound := "User not found"
  const InvalidCredentials := "Invalid email or password"
  const UserExists := "User already exists"
  const CannotDeleteAdmin := "Cannot delete admin user"

  /** The user as the endpoints return it: no password, no timestamps. */
  datatype UserResponse = UserResponse(id: string, name: string, email: string, isAdmin: bool)

  function Response(u: User): UserResponse {
    UserResponse(u.id, u.name, u.email, u.isAdmin)
  }

  function HasEmail(email: string): User -> bool {
    (u: User) => u.email == email
  }

  /** `find_one(email == ...)`: the first user, in natural order, with that
      email. */
  function FindByEmail(users: seq<User>, email: string): (r: Option<nat>)
    ensures r.Some? ==> r.value < |users| && users[r.value].email == email
    ensures r.Some? ==> forall j :: 0 <= j < r.value ==> users[j].email != email
    ensures r.None? <==> forall j :: 0 <= j < |users| ==> users[j].email != email
  {
    Seqs.FirstIndex(users, HasEmail(email))
  }

  // ----- login -----

  /** Login. The stored password's check (a hash comparison in the service)
      is the parameter `verify`. */
  function AuthUser(s: Store.Store, email: string, password: string, verify: (User, string) -> bool): (r: Result<UserResponse>)
    ensures r.Ok? <==> FindByEmail(s.users, email).Some? && verify(s.users[FindByEmail(s.users, email).value], password)
    ensures r.Ok? ==> exists i :: 0 <= i < |s.users| && s.users[i].email == email && verify(s.users[i], password)
                                  && r.value == Response(s.users[i])
    ensures r.Err? ==> r.error == HttpError(Unauthorized, InvalidCredentials)
  {
    match FindByEmail(s.users, email)
    case Some(i) =>
      if verify(s.users[i], password) then Ok(Response(s.users[i]))
      else Err(HttpError(Unauthorized, InvalidCredentials))
    case None => Err(HttpError(Unauthorized, InvalidCredentials))
  }

  /** Login consults only the first account with the email: when two share
      it and the password does not verify against the first, login fails
      even if it verifies against the second. */
  lemma AuthChecksFirstAccountOnly(s: Store.Store, email: string, password: string, verify: (User, string) -> bool, i: nat, j: nat)
    requires i < j < |s.users|
    requires s.users[i].email == email && s.users[j].email == email
    requires forall k :: 0 <= k < i ==> s.users[k].email != email
    requires !verify(s.users[i], password)
    ensures AuthUser(s, email, password, verify) == Err(HttpError(Unauthorized, InvalidCredentials))
  {
    assert FindByEmail(s.users, email) == Some(i);
  }

  // ----- registration -----

  predicate FreshUserId(s: Store.Store, id: string) {
    ObjectIds.IsCanonical(id) && forall i :: 0 <= i < |s.users| ==> s.users[i].id != id
  }

  function RegisterUser(s: Store.Store, name: string, email: string, password: string, newId: string, now: Time): (r: Result<Store.Outcome<UserResponse>>)
    requires FreshUserId(s, newId)
    ensures r.Err? <==> exists i :: 0 <= i < |s.users| && s.users[i].email == email
    ensures r.Err? ==> r.error == HttpError(BadRequest, UserExists)
    ensures r.Ok? ==> var u := NewUser(newId, name, email, password, now);
                      && r.value.store == s.(users := s.users + [u])
                      && r.value.body == Response(u)
                      && !r.value.body.isAdmin
  {
    if FindByEmail(s.users, email).Some? then Err(HttpError(BadRequest, UserExists))
    else
      var u := Save(NewUser(newId, name, email, password, now), now);
      Ok(Store.Outcome(s.(users := s.users + [u]), Response(u)))
  }

  /** Registering an email a second time is refused. */
  lemma RegisterTwiceRefused(s: Store.Store, name: string, email: string, password: string, newId: string, now: Time,
                             name2: string, password2: string, newId2: string, now2: Time)
    requires FreshUserId(s, newId)
    requires RegisterUser(s, name, email, password, newId, now).Ok?
    requires FreshUserId(RegisterUser(s, name, email, password, newId, now).value.store, newId2)
    ensures RegisterUser(RegisterUser(s, name, email, password, newId, now).value.store, name2, email, password2, newId2, now2)
            == Err(HttpError(BadRequest, UserExists))
  {
    var s1 := RegisterUser(s, name, email, password, newId, now).value.store;
    assert s1.users[|s.users|].email == email;
  }

  /** A newly registered user can log in with the password they chose
      (given that the stored password verifies against it). */
  lemma RegisteredUserCanLogIn(s: Store.Store, name: string, email: string, password: string, newId: string, now: Time,
                               verify: (User, string) -> bool)
    requires FreshUserId(s, newId)
    requires RegisterUser(s, name, email, password, newId, now).Ok?
    requires verify(NewUser(newId, name, email, password, now), password)
    ensures var out := RegisterUser(s, name, email, password, newId, now).value;
            AuthUser(out.store, email, password, verify) == Ok(out.body)
  {
    var out := RegisterUser(s, name, email, password, newId, now).value;
    assert out.store.users[|s.users|].email == email;
    assert forall j :: 0 <= j < |s.users| ==> out.store.users[j].email != email by {
      forall j | 0 <= j < |s.users| ensures out.store.users[j].email != email {
        assert out.store.users[j] == s.users[j];
      }
    }
    assert FindByEmail(out.store.users, email) == Some(|s.users|);
  }

  /** No two accounts share an email. */
  predicate EmailsUnique(users: seq<User>) {
    forall i, j :: 0 <= i < j < |users| ==> users[i].email != users[j].email
  }

  lemma RegisterPreservesEmailsUnique(s: Store.Store, name: string, email: string, password: string, newId: string, now: Time)
    requires FreshUserId(s, newId)
    requires EmailsUnique(s.users)
    requires RegisterUser(s, name, email, password, newId, now).Ok?
    ensures EmailsUnique(RegisterUser(s, name, email, password, newId, now).value.store.users)
  {
  }

  // ----- the caller's own profile -----

  datatype UserUpdate = UserUpdate(name: Option<string>, email: Option<string>, password: Option<string>)

  /** Each field is replaced only by a non-empty value. */
  function PatchProfile(u: User, p: UserUpdate): User {
    u.(name := if Truthy(p.name) then p.name.value else u.name,
       email := if Truthy(p.email) then p.email.value else u.email,
       password := if Truthy(p.password) then p.password.value else u.password)
  }

  /** The profile update of the caller, whose document is at position `me`
      (the authentication dependency loaded it). */
  function UpdateUserProfile(s: Store.Store, me: nat, p: UserUpdate, now: Time): (r: Store.Outcome<UserResponse>)
    requires me < |s.users|
    ensures |r.store.users| == |s.users|
    ensures r.store == s.(users := s.users[me := r.store.users[me]])
    ensures var u, v := s.users[me], r.store.users[me];
            && v.name == (if Truthy(p.name) then p.name.value else u.name)
            && v.email == (if Truthy(p.email) then p.email.value else u.email)
            && v.password == (if Truthy(p.password) then p.password.value else u.password)
            && v.id == u.id && v.isAdmin == u.isAdmin && v.createdAt == u.createdAt && v.updatedAt == now
            && r.body == Response(v)
  {
    var v := Save(PatchProfile(s.users[me], p), now);
    Store.Outcome(s.(users := s.users[me := v]), Response(v))
  }

  /** Nobody can raise their own role through the profile. */
  lemma ProfileUpdateKeepsRole(s: Store.Store, me: nat, p: UserUpdate, now: Time)
    requires me < |s.users|
    ensures forall i :: 0 <= i < |s.users| ==> UpdateUserProfile(s, me, p, now).store.users[i].isAdmin == s.users[i].isAdmin
  {
  }

  /** The profile update does not check the new email against other
      accounts: taking another account's email breaks email uniqueness. */
  lemma ProfileUpdateMayDuplicateEmail(s: Store.Store, me: nat, other: nat, p: UserUpdate, now: Time)
    requires me < |s.users| && other < |s.users| && me != other
    requires p.email == Some(s.users[other].email) && |s.users[other].email| > 0
    ensures !EmailsUnique(UpdateUserProfile(s, me, p, now).store.users)
  {
    var after := UpdateUserProfile(s, me, p, now).store.users;
    assert after[me].email == after[other].email;
  }

  // ----- administration -----

  /** The id text names the stored user at position `i`, the first such. */
  predicate FirstNamed(users: seq<User>, idText: string, i: int) {
    && 0 <= i < |users| && ObjectIds.Parse(idText) == Some(users[i].id)
    && forall j :: 0 <= j < i ==> ObjectIds.Parse(idText) != Some(users[j].id)
  }

  predicate Known(users: seq<User>, idText: string) {
    exists i :: 0 <= i < |users| && ObjectIds.Parse(idText) == Some(users[i].id)
  }

  function FindUser(s: Store.Store, idText: string): (r: Result<nat>)
    ensures r.Ok? ==> FirstNamed(s.users, idText, r.value)
    ensures r.Err? <==> !Known(s.users, idText)
    ensures r.Err? ==> r.error == HttpError(NotFound, UserNotFound)
  {
    assert forall i :: 0 <= i < |s.users| ==> Store.UserId(s.users[i]) == s.users[i].id;
    Store.LookupById(s.users, Store.UserId, idText, UserNotFound)
  }

  function GetUserById(s: Store.Store, caller: Principal, idText: string): (r: Result<UserResponse>)
    ensures !caller.isAdmin ==> r == Err(HttpError(Forbidden, AdminRequired))
    ensures caller.isAdmin ==> (r.Ok? <==> Known(s.users, idText))
    ensures caller.isAdmin && r.Err? ==> r.error == HttpError(NotFound, UserNotFound)
    ensures r.Ok? ==> exists i :: FirstNamed(s.users, idText, i) && r.value == Response(s.users[i])
  {
    if !caller.isAdmin then Err(HttpError(Forbidden, AdminRequired))
    else
      var i :- FindUser(s, idText);
      Ok(Response(s.users[i]))
  }

  datatype UserAdminUpdate = UserAdminUpdate(name: Option<string>, email: Option<string>, isAdmin: Option<bool>)

  /** Name and email are replaced only by non-empty values; the role by any
      value present, so `false` demotes. */
  function PatchByAdmin(u: User, p: UserAdminUpdate): User {
    u.(name := if Truthy(p.name) then p.name.value else u.name,
       email := if Truthy(p.email) then p.email.value else u.email,
       isAdmin := if p.isAdmin.Some? then p.isAdmin.value else u.isAdmin)
  }

  function UpdateUser(s: Store.Store, caller: Principal, idText: string, p: UserAdminUpdate, now: Time): (r: Result<Store.Outcome<UserResponse>>)
    ensures !caller.isAdmin ==> r == Err(HttpError(Forbidden, AdminRequired))
    ensures caller.isAdmin ==> (r.Ok? <==> Known(s.users, idText))
    ensures caller.isAdmin && r.Err? ==> r.error == HttpError(NotFound, UserNotFound)
    ensures r.Ok? ==> |r.value.store.users| == |s.users|
    ensures r.Ok? ==> exists i :: (FirstNamed(s.users, idText, i)
                      && var u, v := s.users[i], r.value.store.users[i];
                      && r.value.store == s.(users := s.users[i := v])
                      && v.name == (if Truthy(p.name) then p.name.value else u.name)
                      && v.email == (if Truthy(p.email) then p.email.value else u.email)
                      && v.isAdmin == (if p.isAdmin.Some? then p.isAdmin.value else u.isAdmin)
                      && v.id == u.id && v.password == u.password && v.createdAt == u.createdAt
                      && v.updatedAt == now
                      && r.value.body == Response(v))
  {
    if !caller.isAdmin then Err(HttpError(Forbidden, AdminRequired))
    else
      var i :- FindUser(s, idText);
      var v := Save(PatchByAdmin(s.users[i], p), now);
      Ok(Store.Outcome(s.(users := s.users[i := v]), Response(v)))
  }

  function DeleteUser(s: Store.Store, caller: Principal, idText: string): (r: Result<Store.Outcome<string>>)
    ensures !caller.isAdmin ==> r == Err(HttpError(Forbidden, AdminRequired))
    ensures caller.isAdmin && !Known(s.users, idText) ==> r == Err(HttpError(NotFound, UserNotFound))
    ensures caller.isAdmin && Known(s.users, idText) ==>
              (r.Err? <==> s.users[FindUser(s, idText).value].isAdmin)
    ensures r.Err? && caller.isAdmin && Known(s.users, idText) ==> r.error == HttpError(BadRequest, CannotDeleteAdmin)
    ensures r.Ok? ==> r.value.body == "User removed"
                      && exists i :: (FirstNamed(s.users, idText, i) && !s.users[i].isAdmin
                      && r.value.store == s.(users := Seqs.RemoveAt(s.users, i)))
  {
    if !caller.isAdmin then Err(HttpError(Forbidden, AdminRequired))
    else
      var i :- FindUser(s, idText);
      if s.users[i].isAdmin then Err(HttpError(BadRequest, CannotDeleteAdmin))
      else Ok(Store.Outcome(s.(users := Seqs.RemoveAt(s.users, i)), "User removed"))
  }

  function IsAdmin(u: User): bool {
    u.isAdmin
  }

  /** Delete never removes an administrator: the administrators, in order,
      are the same before and after. */
  lemma DeleteKeepsAdmins(s: Store.Store, caller: Principal, idText: string)
    requires DeleteUser(s, caller, idText).Ok?
    ensures Seqs.Filter(DeleteUser(s, caller, idText).value.store.users, IsAdmin) == Seqs.Filter(s.users, IsAdmin)
  {
    var i := FindUser(s, idText).value;
    Seqs.RemoveRejected(s.users, i, IsAdmin);
  }

  /** With unique ids, a deleted user is no longer found. */
  lemma DeletedUserIsGone(s: Store.Store, caller: Principal, idText: string)
    requires Store.UniqueIds(s.users, Store.UserId)
    requires DeleteUser(s, caller, idText).Ok?
    ensures GetUserById(DeleteUser(s, caller, idText).value.store, caller, idText) == Err(HttpError(NotFound, UserNotFound))
  {
    var i := FindUser(s, idText).value;
    var after := DeleteUser(s, caller, idText).value.store.users;
    forall j | 0 <= j < |after| ensures ObjectIds.Parse(idText) != Some(after[j].id) {
      if j < i {
        assert Store.UserId(s.users[j]) != Store.UserId(s.users[i]);
      } else {
        assert after[j] == s.users[j + 1];
        assert Store.UserId(s.users[i]) != Store.UserId(s.users[j + 1]);
      }
    }
  }

  /** An administrator cannot be deleted until an administrator demotes
      them; after the demotion the same delete succeeds. */
  lemma DemoteThenDelete(s: Store.Store, caller: Principal, idText: string, name: Option<string>, email: Option<string>, now: Time)
    requires caller.isAdmin && Known(s.users, idText)
    ensures var p := UserAdminUpdate(name, email, Some(false));
            var s1 := UpdateUser(s, caller, idText, p, now).value.store;
            DeleteUser(s1, caller, idText).Ok?
  {
    var i := FindUser(s, idText).value;
    var s1 := UpdateUser(s, caller, idText, UserAdminUpdate(name, email, Some(false)), now).value.store;
    assert FirstNamed(s1.users, idText, i) by {
      forall j | 0 <= j < i ensures ObjectIds.Parse(idText) != Some(s1.users[j].id) {
        assert s1.users[j] == s.users[j];
      }
    }
  }
}

=== FILE: wrappers.dfy ===
/** Failure-compatible result types shared by every endpoint of the shop backend.
    An endpoint either produces a value or fails with an HTTP status and a
    detail message, exactly as a raised `HTTPException` (or the global 500
    handler) does in the service. */
module Wrappers {

  datatype Option<+T> = None | Some(value: T) {
    predicate IsFailure() {
      None?
    }

    function PropagateFailure<U>(): Option<U>
      requires None?
    {
      None
    }

    function Extract(): T
      requires Some?
    {
      value
    }
  }

  /** An HTTP error response: the status code and the `detail` text. */
  datatype HttpError = HttpError(status: int, detail: string)

  datatype Result<+T> = Ok(value: T) | Err(error: HttpError) {
    predicate IsFailure() {
      Err?
    }

    function PropagateFailure<U>(): Result<U>
      requires Err?
    {
      Err(error)
    }

    function Extract(): T
      requires Ok?
    {
      value
    }
  }

  const BadRequest := 400
  const Unauthorized := 401
  const Forbidden := 403
  const NotFound := 404
  const Unprocessable := 422
  const InternalError := 500

  /** The caller as resolved by the authentication dependency: the user's id,
      display name and role. */
  datatype Principal = Principal(id: string, name: string, isAdmin: bool)

  /** The refusal of the admin-only dependency. That dependency is not part
      of this model; its status and text are taken as 403 and this message. */
  const AdminRequired := "Not authorized as an admin"

  /** Python truthiness of an optional string field of a patch body: present
      and non-empty. */
  predicate Truthy(s: Option<string>) {
    s.Some? && |s.value| > 0
  }

  /** Timestamps are opaque instants supplied by the caller (the wall clock is
      not part of the model). */
  type Time = int
}
